=== FILE: README.md ===
# available-slots in Dafny

A model of `available-slots`, a small scheduling library. It takes a day's busy
time ranges, written as `"HH:MM"` strings, and returns the free ranges of a
working window, cut into slots of a given size with an optional break between
consecutive slots.

The library's one file, `lib/index.ts`, has four steps:

- **`timeToMinutes` / `minutesToTime`** convert between `"HH:MM"` and minutes
  since midnight. They live in module `Time`.
- **`mergeOverlappingSlots`** sorts the busy ranges by start. It then folds every
  range that starts at or before the end of the range being built into it, so
  overlapping and touching ranges become one. This is module `Merge`, over the
  `Interval` datatype of module `Intervals`.
- **`generateAvailableSlots`** walks a cursor from the window start. Before each
  merged busy range it emits slots while they end by that range's start, stepping
  by slot size plus break time. Then it jumps to the busy range's end. A last
  fitting loop runs against the window end. This is module `Generate`.
- **`slots`** fills in the defaults: 30-minute slots, no break, and the window
  08:00 to 18:00. It skips the merge when the busy list is empty, then merges and
  generates. This is module `AvailableSlots`. There the busy list also travels as
  strings between the two phases, as in the source.

Each loop of the source is also written as a `method` and proved equal to the
functional definition the properties are stated about:

- `Merge.MergeOverlapping` and `Merge.MergeLoop`;
- `Generate.GenerateAvailable`, `Generate.BusyLoop` and `Generate.FitLoop`.

The merged busy list always covers exactly the instants the input covers
(intervals are closed). For busy ranges with start <= end it is also a
canonical form: ascending and strictly separated. Two such lists covering the
same instants are equal. From this the model derives, for busy ranges with
start <= end:

- the choice of sort does not matter;
- the order of the busy list does not matter;
- merging is idempotent.

A reversed range (start after end) breaks all three, as
`Merge.ReversedRangeOrderMatters` shows.

Module `Scenarios` restates the repository's twelve test cases as lemmas. Minutes
are written as numbers (09:00 is 540). An expected answer is written as runs of
evenly spaced slots: `Run(c, size, step, n)` is `n` slots of `size` minutes from
`c`. Three of the cases are also stated end to end on strings.

## Model

| member | source | states |
|---|---|---|
| Time.MinutesToTime | lib/index.ts:29-35 | The rendering is a well-formed time string (digits, one colon, digits) at least five characters long, because both fields are padded to two digits. |
| Time.RoundTrip | lib/index.ts:19-35 | Parsing the rendering of any minute count gives that count back. |
| Time.MinutesToTimeFields | lib/index.ts:29-35 | The rendered hour field has at least two digits and denotes m div 60. The minute field has exactly two digits and denotes m mod 60, which is below 60. |
| Time.CanonicalRoundTrip | lib/index.ts:19-35 | A five-character "HH:MM" with minutes below 60 parses to hours*60+minutes of its digits, and re-renders to itself. |
| Time.CanonicalValue | lib/index.ts:19-22 | timeToMinutes: any five-character "HH:MM" of digits is a valid time string and denotes hours*60+minutes, with a leading zero in either field adding nothing. Neither field is range-checked, so "08:75" denotes 555. |
| Intervals.SortByStart | lib/index.ts:46-51 | The sorted list is ordered by start and has the input's length. |
| Intervals.SortByStartPermutes | lib/index.ts:46-51 | The sort only reorders: the sorted list holds every input interval exactly as often as the input does (same multiset). |
| Intervals.SeparatedUnique | lib/index.ts:53-64 | Two ascending, strictly separated lists that cover the same instants are the same list, so the merge's output form is canonical. |
| Merge.MergeRun | lib/index.ts:55-64 | One merge pass keeps every interval already emitted, in place, and emits at least one and at most one more interval than it has left to read. |
| Merge.MergeSorted | lib/index.ts:53-64 | Merging a sorted list never lengthens it, and the result is empty exactly when the input is. |
| Merge.MergeIntervals | lib/index.ts:43-64 | mergeOverlappingSlots in minutes: the merged list is never longer than the input, and it is empty exactly when the input is empty. |
| Merge.MergeOverlapping | lib/index.ts:43-64 | The procedure (empty input short-circuits, otherwise sort and run the merge loop) computes the functional merge. |
| Merge.MergeLoop | lib/index.ts:53-64 | The loop that extends the last merged interval in place, or pushes a new one, computes the functional merge of a sorted list. |
| Merge.MergeCovers | lib/index.ts:43-64 | An instant is covered by the merged list if and only if it is covered by the input. |
| Merge.MergeSeparated | lib/index.ts:53-64 | For busy ranges with start <= end, the merged list is ascending and strictly separated: each interval ends before the next begins, so none overlap or touch. |
| Merge.MergeEndpoints | lib/index.ts:53-64 | Every start and end in the merged list is a start or an end of some input interval. |
| Merge.AnySortSameMerge | lib/index.ts:46-51 | For busy ranges with start <= end, any permutation of the input sorted by start, whatever order it gives to ties, merges to the same list. |
| Merge.MergePermutationInvariant | lib/index.ts:43-70 | For busy ranges with start <= end, reordering the busy list does not change the merged list. |
| Merge.MergeIdempotent | lib/index.ts:43-70 | Merging an already ascending, strictly separated list returns it unchanged. |
| Merge.ReversedRangeOrderMatters | lib/index.ts:46-64 | With a reversed range the order of the input matters: [5-3, 5-10] merges to itself, while [5-10, 5-3] merges to [5-10], because the stable sort keeps ties in input order and 5 is not at or before the end 3. |
| Merge.MergeTwice | lib/index.ts:43-70 | For busy ranges with start <= end, merging twice gives the same as merging once. |
| Generate.Fill | lib/index.ts:96-102 | A fitting pass emits slots of exactly the slot size, each ending by the limit. They start at the cursor, and each next one starts a full step later. The cursor ends where the next slot would no longer fit. |
| Generate.BusyPass | lib/index.ts:95-104 | After the loop over the busy intervals the cursor is at or past every busy interval's end, and every emitted slot has the slot size. |
| Generate.GenerateSlots | lib/index.ts:78-115 | Every available slot is exactly slotSize long and starts at or after startTime. |
| Generate.GenerateAvailable | lib/index.ts:78-115 | The procedure with its loops, cursor and pushes computes the functional scan. |
| Generate.BusyLoop | lib/index.ts:95-104 | The loop over busy intervals (a fitting loop, then the jump to the busy end) computes the busy pass. |
| Generate.FitLoop | lib/index.ts:106-112 | The while loop that pushes a slot and advances by slot size plus break computes one fitting pass. |
| Generate.FillSpaced | lib/index.ts:96-102 | Within one fitting pass, consecutive slots start exactly slotSize + breakTime apart. |
| Generate.GenerateOrdered | lib/index.ts:86-112 | Every slot ends at least breakTime before any later slot starts, so slots are ascending and never overlap. |
| Generate.GenerateAvoidsBusy | lib/index.ts:93-112 | With busy intervals sorted by start, no slot overlaps a busy interval: each ends by its start or starts at or after its end. |
| Generate.GenerateWithinWindow | lib/index.ts:93-112 | Every slot lies within [startTime, endTime], provided no busy interval starts after endTime. |
| Generate.FullyBookedIsEmpty | lib/index.ts:93-112 | With busy intervals sorted by start, if some busy interval spans the whole window and none starts after it, no slot is produced. |
| Generate.GenerateAnchored | lib/index.ts:93-112 | The first slot starts at startTime or at a busy end. Each later slot starts exactly one step after its predecessor or at a busy end, since no break follows busy time. |
| Generate.NthStartClosedForm | lib/index.ts:96-102 | Stepping the cursor k times by slotSize + breakTime from a start reaches start + k*(slotSize + breakTime). |
| Generate.FillClosedForm | lib/index.ts:96-102 | The k-th slot of a fitting pass starts k steps of slotSize + breakTime after the cursor, and the pass leaves the cursor at the next such point. |
| Generate.GenerateNoBusy | lib/index.ts:106-112 | Without busy time the slots are the evenly spaced run from startTime, and slot k exists exactly when it ends by endTime. |
| Generate.EarlyBusyIgnored | lib/index.ts:95-104 | Busy intervals at the front of the list that end by startTime do not change the result. |
| Generate.BusyPastWindowLeaks | lib/index.ts:96 | The fitting loop before a busy interval does not look at endTime. With window 08:00-09:00 and busy 10:00-11:00, the fourth slot is 09:30-10:00, past the window's end. |
| AvailableSlots.ToTimeSlots | lib/index.ts:66-69 | Rendered ranges are well-formed time strings that parse back to the intervals they came from. |
| AvailableSlots.MergeOverlappingSlots | lib/index.ts:43-70 | The merged ranges, parsed, are the merge of the parsed input. |
| AvailableSlots.GenerateAvailableSlots | lib/index.ts:78-115 | The generated ranges, parsed, are the minute-level scan over the parsed busy ranges. |
| AvailableSlots.Slots | lib/index.ts:123-153 | With or without the empty-list shortcut, and despite the busy list passing through strings, the result parses to merge-then-generate on the parsed options with defaults applied. |
| AvailableSlots.SlotsRendered | lib/index.ts:123-153 | The strings slots returns are exactly the rendering of the minute-level merge-then-generate result: not just equal after parsing, but the same "HH:MM" strings, because every range is rendered afresh by minutesToTime. |
| AvailableSlots.Defaults | lib/index.ts:124-130 | Omitted options mean slotSize 30, breakTime 0, start 08:00 (480 minutes) and end 18:00 (1080 minutes). |
| AvailableSlots.SlotsOrderInvariant | lib/index.ts:123-153 | For busy ranges with start <= end, listing the busy ranges in any other order gives the same answer. |
| AvailableSlots.SlotsAvoidBusy | lib/index.ts:123-153 | For busy ranges with start <= end, no instant strictly inside an available range is busy, and no available range overlaps any of the caller's busy ranges. |
| AvailableSlots.SlotsShape | lib/index.ts:123-153 | Each range is slotSize long, ranges are at least breakTime apart, and each starts at the window start, one step after its predecessor, or at the end of a caller's busy range. |
| AvailableSlots.SlotsWithinWindow | lib/index.ts:123-153 | If no busy range starts after the window end, every range lies inside the window. |
| AvailableSlots.SlotsFullyBooked | lib/index.ts:123-153 | For busy ranges with start <= end, a busy range covering the whole window leaves no available range, provided no busy range starts after the window closes. |
| AvailableSlots.SlotsNoBusy | lib/index.ts:135-143 | With no busy ranges the answer is the evenly spaced run from the window start, with exactly as many ranges as fit before the window ends. |
| AvailableSlots.MergeOverlappingSlotsCanonical | lib/index.ts:43-70 | The merged ranges cover exactly the instants the input covers. For busy ranges with start <= end they are also strictly separated. |
| AvailableSlots.MergeOverlappingSlotsIdempotent | lib/index.ts:43-70 | For busy ranges with start <= end, merging already merged ranges gives back the same strings. |
| AvailableSlots.FindSlots | lib/index.ts:145-152 | Merge then generate, in minutes: every slot lasts exactly slotSize minutes and starts no earlier than the window start. |
| AvailableSlots.FindSlotsAvoidBusy | lib/index.ts:145-152 | On the minute level, for busy intervals with start <= end, after merging no slot overlaps any of the caller's (unmerged) busy intervals. |
| AvailableSlots.FindSlotsAnchored | lib/index.ts:145-152 | On the minute level, every slot starts at the window start, one step after the previous slot, or at the end of one of the caller's busy intervals. |
| AvailableSlots.FindSlotsFullyBooked | lib/index.ts:145-152 | On the minute level, for busy intervals with start <= end, a busy interval spanning the window yields no slots, provided no busy interval starts after the window end; a window that closes before it opens yields none either. |
| Scenarios.BasicUsage | lib/index.test.ts:5-31 | Busy 09:00-10:30 and 14:00-15:30 with the default window and 30-minute slots: two slots before 09:00, seven from 10:30 to 14:00, five from 15:30 to 18:00. |
| Scenarios.CustomSizeAndBreak | lib/index.test.ts:33-55 | The same busy ranges, 45-minute slots and 15-minute breaks: 08:00, then 10:30, 11:30, 12:30, then 15:30, 16:30. |
| Scenarios.NoBusyFullWindow | lib/index.test.ts:57-74 | No busy ranges, window 09:00-12:00: six consecutive half hours. |
| Scenarios.OverlappingBusy | lib/index.test.ts:76-95 | Busy 09:00-10:30, 10:00-11:00 and 10:45-12:00 in 08:00-13:00: two slots before 09:00 and two after 12:00. |
| Scenarios.AdjacentBusy | lib/index.test.ts:97-115 | Busy 09:00-10:00 and 10:00-11:00 in 08:00-12:00: two slots before 09:00 and two after 11:00. |
| Scenarios.FullyBookedStrings | lib/index.test.ts:117-123 | slots with one busy range 08:00-18:00 and all defaults returns the empty list. |
| Scenarios.OutsideHours | lib/index.test.ts:125-157 | Busy 07:00-08:30 and 17:30-19:00 in 08:00-18:00: eighteen half hours from 08:30 to 17:30. |
| Scenarios.BreakTimeGaps | lib/index.test.ts:159-177 | 30-minute slots with 15-minute breaks around busy 10:00-10:30 in 08:00-12:00: 08:00, 08:45, 09:30, then 10:30, 11:15. |
| Scenarios.SmallWindowLargeSlotsStrings | lib/index.test.ts:179-190 | 60-minute slots in 10:00-11:30 with no busy time: exactly the range "10:00"-"11:00". |
| Scenarios.UnorderedBusy | lib/index.test.ts:192-217 | Busy 14:00-15:00, 09:00-10:00, 11:30-12:30 out of order in 08:00-16:00: 2, 3, 3 and 2 half hours in the four gaps. |
| Scenarios.ExactFitAtEndStrings | lib/index.test.ts:219-230 | Window 17:30-18:00 with 30-minute slots: exactly the range "17:30"-"18:00". |
| Scenarios.ComplexOverlaps | lib/index.test.ts:232-254 | Five unordered, overlapping busy ranges in 08:00-16:00: two slots before 09:00, two from 12:00, one from 15:30. |
| Scenarios.FillIsRun | lib/index.ts:96-102 | A fitting pass in which exactly n slots fit emits n evenly spaced slots and leaves the cursor where slot n+1 would start. |
| Scenarios.MergedTo | lib/index.ts:43-70 | A strictly separated list that covers exactly the instants the busy list covers is its merge. |

## Left out

- Time strings that are not digits, a colon and digits are excluded by precondition (`ValidOptions`, `IsTimeSlot`). The source passes anything to `Number()`, which yields `NaN` for malformed input and accepts signs, spaces and exponents. Those quirks are not modelled.
- Minutes are natural numbers. Negative minute counts and fractional values cannot arise from well-formed strings, and are not modelled.
- Time.RoundTrip: holds for every natural number of minutes, because the model's integers are unbounded. The source computes with JavaScript numbers (64-bit floating point). Above 2^53, `hours * 60 + minutes` and `minutes % 60` lose integer precision, and from 10^21 on `toString` switches to exponent notation. Neither is modelled.
- A slot size that is zero, negative or fractional, and a negative or fractional break, are excluded: both options are integers in the model, and `ValidOptions` requires a positive size and a non-negative break. With a slot size of zero and no break the source's fitting loops never end. A fractional break such as 7.5 is accepted by the source and renders times like "08:37.5", which the model cannot express.
- `null` option values are not modelled. An option is either given (`Some`) or omitted (`None`, which takes the default). In the source the defaults apply only to `undefined`, so a `null` option is passed on as `null` and does not take the default.
- The merge loop of the source updates the last merged object in place. The model writes the update as a sequence update, which is observably the same because the objects are fresh.
- `Array.prototype.sort` is modelled by an insertion sort, which is stable as `Array.prototype.sort` is: ties keep their input order. `Merge.AnySortSameMerge` shows that, for busy ranges with start <= end, the result does not depend on which sort by start is used.
- The test runner and its assertions (`node:test`, `assert.deepStrictEqual`) are replaced by the lemmas of `Scenarios`. Most scenarios are stated on minutes rather than strings.
- Generate.GenerateWithinWindow: holds only when no busy interval starts after the window end. The source's fitting loop before a busy interval never consults `endTime` (see `Generate.BusyPastWindowLeaks`). This behaviour is modelled as written.
- AvailableSlots.SlotsWithinWindow: needs the same condition on the busy ranges, for the same reason.
- AvailableSlots.FindSlotsFullyBooked: needs no busy interval starting after the window end. Otherwise the fitting loop before that interval emits slots past the window, by the mechanism `Generate.BusyPastWindowLeaks` exhibits.
- AvailableSlots.SlotsFullyBooked: has the same condition as the minute-level lemma.
- Generate.GenerateAvoidsBusy: requires the busy intervals sorted by start, which the merge guarantees. `AvailableSlots.FindSlotsAvoidBusy` states it for any caller input whose ranges have start <= end.
- Merge.MergeSeparated, Merge.AnySortSameMerge, Merge.MergePermutationInvariant and Merge.MergeTwice: require every busy range to have start <= end. The merge itself is modelled for any input as the source computes it. A reversed range ("10:00" to "09:00") is accepted by the source and can make the result depend on the input order (`Merge.ReversedRangeOrderMatters`). The lemmas built on them (`AvailableSlots.FindSlotsAvoidBusy`, `AvailableSlots.FindSlotsFullyBooked`, `AvailableSlots.SlotsOrderInvariant`, `AvailableSlots.SlotsAvoidBusy`, `AvailableSlots.SlotsFullyBooked`, `AvailableSlots.MergeOverlappingSlotsCanonical`, `AvailableSlots.MergeOverlappingSlotsIdempotent`) carry the same condition.

=== FILE: generate.dfy ===
/**
  The greedy forward scan of generateAvailableSlots, in minutes.

  A cursor starts at the window start.  Before each busy interval (in the order
  given) the scan emits slots `[cursor, cursor + slotSize]` while they end at or
  before the busy interval's start, advancing the cursor by slotSize plus the
  break; then the cursor jumps to the busy interval's end unless it is already
  past it, with no break added.  A last fitting pass runs against the window
  end.  The fitting passes before busy intervals do not look at the window end.
 */
module Generate {
  import opened Intervals

  /** What a fitting pass leaves behind: the slots it emitted and the cursor. */
  datatype Scan = Scan(slots: seq<Interval>, cursor: nat)

  /**
    One fitting pass: emit slots of `size` minutes from `cursor` while the next
    one ends at or before `limit`, stepping the cursor by `step` (slot size plus
    break time) after each.
   */
  function Fill(cursor: nat, limit: nat, size: nat, step: nat): (r: Scan)
    requires 0 < size <= step
    ensures cursor <= r.cursor
    ensures r.slots == [] ==> r.cursor == cursor
    ensures r.slots != [] ==> r.slots[0].start == cursor && r.cursor == r.slots[|r.slots| - 1].start + step
    ensures forall i :: 0 <= i < |r.slots| ==> r.slots[i].end == r.slots[i].start + size <= limit
    ensures forall i :: 0 <= i < |r.slots| ==> cursor <= r.slots[i].start && r.slots[i].start + step <= r.cursor
    ensures limit < r.cursor + size
    decreases limit - cursor
  {
    if cursor + size <= limit then
      var rest := Fill(cursor + step, limit, size, step);
      Scan([Interval(cursor, cursor + size)] + rest.slots, rest.cursor)
    else
      Scan([], cursor)
  }

  /**
    The loop over the busy intervals: a fitting pass against each interval's
    start, then the jump of the cursor to that interval's end.
   */
  function BusyPass(busy: seq<Interval>, cursor: nat, size: nat, step: nat): (r: Scan)
    requires 0 < size <= step
    ensures cursor <= r.cursor
    ensures forall k :: 0 <= k < |busy| ==> busy[k].end <= r.cursor
    ensures forall i :: 0 <= i < |r.slots| ==> r.slots[i].end == r.slots[i].start + size
    ensures forall i :: 0 <= i < |r.slots| ==> cursor <= r.slots[i].start && r.slots[i].start + step <= r.cursor
    decreases |busy|
  {
    if busy == [] then Scan([], cursor)
    else
      var pre := Fill(cursor, busy[0].start, size, step);
      var post := BusyPass(busy[1..], Max(pre.cursor, busy[0].end), size, step);
      Scan(pre.slots + post.slots, post.cursor)
  }

  /** generateAvailableSlots in minutes. */
  function GenerateSlots(busy: seq<Interval>, startTime: nat, endTime: nat, slotSize: nat, breakTime: nat): (r: seq<Interval>)
    requires slotSize > 0
    ensures forall i :: 0 <= i < |r| ==> r[i].end - r[i].start == slotSize
    ensures forall i :: 0 <= i < |r| ==> startTime <= r[i].start
  {
    var step := slotSize + breakTime;
    var scan := BusyPass(busy, startTime, slotSize, step);
    scan.slots + Fill(scan.cursor, endTime, slotSize, step).slots
  }

  /**
    generateAvailableSlots written as the source's loops: a loop over the busy
    intervals, each holding a fitting loop, then the trailing fitting loop.
   */
  method GenerateAvailable(busy: seq<Interval>, startTime: nat, endTime: nat, slotSize: nat, breakTime: nat)
    returns (available: seq<Interval>)
    requires slotSize > 0
    ensures available == GenerateSlots(busy, startTime, endTime, slotSize, breakTime)
  {
    var total := slotSize + breakTime;
    var current;
    available, current := BusyLoop(busy, startTime, slotSize, total);
    available, current := FitLoop(available, current, endTime, slotSize, total);
  }

  /** The loop over the busy intervals, each holding a fitting loop and the jump past the interval. */
  method BusyLoop(busy: seq<Interval>, startTime: nat, slotSize: nat, total: nat)
    returns (available: seq<Interval>, current: nat)
    requires 0 < slotSize <= total
    ensures available == BusyPass(busy, startTime, slotSize, total).slots
    ensures current == BusyPass(busy, startTime, slotSize, total).cursor
  {
    available := [];
    current := startTime;
    ghost var whole := BusyPass(busy, startTime, slotSize, total);
    var k := 0;
    assert busy[k..] == busy;
    while k < |busy|
      invariant 0 <= k <= |busy|
      invariant available + BusyPass(busy[k..], current, slotSize, total).slots == whole.slots
      invariant BusyPass(busy[k..], current, slotSize, total).cursor == whole.cursor
    {
      var b := busy[k];
      ghost var fill := Fill(current, b.start, slotSize, total);
      ghost var after := BusyPass(busy[k + 1..], Max(fill.cursor, b.end), slotSize, total);
      BusyPassAt(busy, k, current, slotSize, total);
      assert available + (fill.slots + after.slots) == (available + fill.slots) + after.slots;
      available, current := FitLoop(available, current, b.start, slotSize, total);
      current := Max(current, b.end);
      k := k + 1;
    }
    assert busy[k..] == [];
  }

  /** The busy pass from interval `k` on: a fitting pass, then the rest from past interval `k`. */
  lemma BusyPassAt(busy: seq<Interval>, k: nat, cursor: nat, size: nat, step: nat)
    requires 0 < size <= step && k < |busy|
    ensures var fill := Fill(cursor, busy[k].start, size, step);
            var after := BusyPass(busy[k + 1..], Max(fill.cursor, busy[k].end), size, step);
            BusyPass(busy[k..], cursor, size, step) == Scan(fill.slots + after.slots, after.cursor)
  {
    assert busy[k..][1..] == busy[k + 1..];
  }

  /**
    One fitting loop as written: push [current, current + slotSize] and
    advance by slotSize + breakTime while the slot ends by `limit`.
   */
  method FitLoop(available: seq<Interval>, current: nat, limit: nat, slotSize: nat, total: nat)
    returns (available': seq<Interval>, current': nat)
    requires 0 < slotSize <= total
    ensures available' == available + Fill(current, limit, slotSize, total).slots
    ensures current' == Fill(current, limit, slotSize, total).cursor
  {
    available', current' := available, current;
    while current' + slotSize <= limit
      invariant available' + Fill(current', limit, slotSize, total).slots == available + Fill(current, limit, slotSize, total).slots
      invariant Fill(current', limit, slotSize, total).cursor == Fill(current, limit, slotSize, total).cursor
      decreases limit - current'
    {
      available' := available' + [Interval(current', current' + slotSize)];
      current' := current' + total;
    }
  }

  // ---------------------------------------------------------------------------
  // Order and spacing

  /** Every slot starts at least `step` after the start of any earlier slot. */
  predicate Ascending(slots: seq<Interval>, step: nat) {
    forall i, j :: 0 <= i < j < |slots| ==> slots[i].start + step <= slots[j].start
  }

  /** Each slot ends at least `brk` minutes before any later slot starts. */
  ghost predicate BreakBetween(slots: seq<Interval>, brk: nat) {
    forall i, j :: 0 <= i < j < |slots| ==> slots[i].end + brk <= slots[j].start
  }

  /** Consecutive slots start exactly `step` apart. */
  ghost predicate Spaced(slots: seq<Interval>, step: nat) {
    forall i :: 0 <= i < |slots| - 1 ==> slots[i + 1].start == slots[i].start + step
  }

  lemma AscendingAppend(a: seq<Interval>, b: seq<Interval>, step: nat, mid: nat)
    requires Ascending(a, step) && Ascending(b, step)
    requires forall i :: 0 <= i < |a| ==> a[i].start + step <= mid
    requires forall j :: 0 <= j < |b| ==> mid <= b[j].start
    ensures Ascending(a + b, step)
  {
    forall i, j | 0 <= i < j < |a + b| ensures (a + b)[i].start + step <= (a + b)[j].start {
      if j < |a| {
        assert (a + b)[i] == a[i] && (a + b)[j] == a[j];
      } else if i < |a| {
        assert (a + b)[i] == a[i] && (a + b)[j] == b[j - |a|];
      } else {
        assert (a + b)[i] == b[i - |a|] && (a + b)[j] == b[j - |a|];
      }
    }
  }

  lemma {:induction false} FillAscending(cursor: nat, limit: nat, size: nat, step: nat)
    requires 0 < size <= step
    ensures Ascending(Fill(cursor, limit, size, step).slots, step)
    decreases limit - cursor
  {
    if cursor + size <= limit {
      var rest := Fill(cursor + step, limit, size, step);
      FillAscending(cursor + step, limit, size, step);
      AscendingAppend([Interval(cursor, cursor + size)], rest.slots, step, cursor + step);
    }
  }

  lemma {:induction false} BusyPassAscending(busy: seq<Interval>, cursor: nat, size: nat, step: nat)
    requires 0 < size <= step
    ensures Ascending(BusyPass(busy, cursor, size, step).slots, step)
    decreases |busy|
  {
    if busy != [] {
      var pre := Fill(cursor, busy[0].start, size, step);
      var next := Max(pre.cursor, busy[0].end);
      FillAscending(cursor, busy[0].start, size, step);
      BusyPassAscending(busy[1..], next, size, step);
      AscendingAppend(pre.slots, BusyPass(busy[1..], next, size, step).slots, step, next);
    }
  }

  /**
    Slots come out in ascending order and never overlap: each ends at least
    breakTime minutes before any later slot starts.
   */
  lemma GenerateOrdered(busy: seq<Interval>, startTime: nat, endTime: nat, slotSize: nat, breakTime: nat)
    requires slotSize > 0
    ensures BreakBetween(GenerateSlots(busy, startTime, endTime, slotSize, breakTime), breakTime)
  {
    GenerateAscending(busy, startTime, endTime, slotSize, breakTime);
    AscendingBreak(GenerateSlots(busy, startTime, endTime, slotSize, breakTime), slotSize, breakTime);
  }

  /** Slot starts ascend by at least slotSize + breakTime across the whole result. */
  lemma GenerateAscending(busy: seq<Interval>, startTime: nat, endTime: nat, slotSize: nat, breakTime: nat)
    requires slotSize > 0
    ensures Ascending(GenerateSlots(busy, startTime, endTime, slotSize, breakTime), slotSize + breakTime)
  {
    var step := slotSize + breakTime;
    var scan := BusyPass(busy, startTime, slotSize, step);
    var tail := Fill(scan.cursor, endTime, slotSize, step);
    assert GenerateSlots(busy, startTime, endTime, slotSize, breakTime) == scan.slots + tail.slots;
    BusyPassAscending(busy, startTime, slotSize, step);
    FillAscending(scan.cursor, endTime, slotSize, step);
    AscendingAppend(scan.slots, tail.slots, step, scan.cursor);
  }

  /** Slots of one size whose starts ascend by size plus break leave the break between them. */
  lemma AscendingBreak(r: seq<Interval>, size: nat, brk: nat)
    requires Ascending(r, size + brk)
    requires forall i :: 0 <= i < |r| ==> r[i].end - r[i].start == size
    ensures BreakBetween(r, brk)
  {
    forall i, j | 0 <= i < j < |r| ensures r[i].end + brk <= r[j].start {
      assert r[i].start + (size + brk) <= r[j].start;
    }
  }

  /** Within one fitting pass, consecutive slots start exactly `step` apart. */
  lemma {:induction false} FillSpaced(cursor: nat, limit: nat, size: nat, step: nat)
    requires 0 < size <= step
    ensures Spaced(Fill(cursor, limit, size, step).slots, step)
    decreases limit - cursor
  {
    if cursor + size <= limit {
      var rest := Fill(cursor + step, limit, size, step);
      var s := [Interval(cursor, cursor + size)] + rest.slots;
      FillSpaced(cursor + step, limit, size, step);
      forall i | 0 <= i < |s| - 1 ensures s[i + 1].start == s[i].start + step {
        var j := i + 1;
        if i > 0 {
          assert s[i] == rest.slots[i - 1] && s[j] == rest.slots[j - 1];
        }
      }
    }
  }

  // ---------------------------------------------------------------------------
  // No overlap with busy time

  /** The slot and the busy interval share no instant except possibly an endpoint. */
  predicate Apart(slot: Interval, b: Interval) {
    slot.end <= b.start || b.end <= slot.start
  }

  ghost predicate AllApart(slots: seq<Interval>, busy: seq<Interval>) {
    forall i, k :: 0 <= i < |slots| && 0 <= k < |busy| ==> Apart(slots[i], busy[k])
  }

  lemma {:induction false} BusyPassAvoidsBusy(busy: seq<Interval>, cursor: nat, size: nat, step: nat)
    requires 0 < size <= step
    requires SortedByStart(busy)
    ensures AllApart(BusyPass(busy, cursor, size, step).slots, busy)
    decreases |busy|
  {
    if busy != [] {
      var pre := Fill(cursor, busy[0].start, size, step);
      var next := Max(pre.cursor, busy[0].end);
      var post := BusyPass(busy[1..], next, size, step);
      BusyPassAvoidsBusy(busy[1..], next, size, step);
      var slots := pre.slots + post.slots;
      assert slots == BusyPass(busy, cursor, size, step).slots;
      forall i, k | 0 <= i < |slots| && 0 <= k < |busy| ensures Apart(slots[i], busy[k]) {
        if i < |pre.slots| {
          assert slots[i] == pre.slots[i];
          assert pre.slots[i].end <= busy[0].start;
          assert busy[0].start <= busy[k].start;
        } else {
          var i' := i - |pre.slots|;
          assert slots[i] == post.slots[i'];
          assert next <= post.slots[i'].start;
          if k > 0 {
            assert busy[k] == busy[1..][k - 1];
            assert Apart(post.slots[i'], busy[1..][k - 1]);
          }
        }
      }
    }
  }

  /**
    When the busy intervals are sorted by start (as merged ones are), no
    emitted slot overlaps any busy interval: each ends at or before the busy
    interval's start or starts at or after its end.
   */
  lemma GenerateAvoidsBusy(busy: seq<Interval>, startTime: nat, endTime: nat, slotSize: nat, breakTime: nat)
    requires slotSize > 0
    requires SortedByStart(busy)
    ensures AllApart(GenerateSlots(busy, startTime, endTime, slotSize, breakTime), busy)
  {
    var step := slotSize + breakTime;
    var scan := BusyPass(busy, startTime, slotSize, step);
    var tail := Fill(scan.cursor, endTime, slotSize, step);
    BusyPassAvoidsBusy(busy, startTime, slotSize, step);
    forall i, k | 0 <= i < |tail.slots| && 0 <= k < |busy| ensures Apart(tail.slots[i], busy[k]) {
      assert busy[k].end <= scan.cursor;
    }
    AllApartAppend(scan.slots, tail.slots, busy);
  }

  lemma AllApartAppend(a: seq<Interval>, b: seq<Interval>, busy: seq<Interval>)
    requires AllApart(a, busy) && AllApart(b, busy)
    ensures AllApart(a + b, busy)
  {
    forall i, k | 0 <= i < |a + b| && 0 <= k < |busy| ensures Apart((a + b)[i], busy[k]) {
      if i >= |a| {
        assert (a + b)[i] == b[i - |a|];
      }
    }
  }

  // ---------------------------------------------------------------------------
  // Window bounds

  /** `x` is at or before the start of some busy interval. */
  predicate BeforeSomeBusy(x: nat, busy: seq<Interval>) {
    exists b :: b in busy && x <= b.start
  }

  ghost predicate AllBeforeSomeBusy(slots: seq<Interval>, busy: seq<Interval>) {
    forall i :: 0 <= i < |slots| ==> BeforeSomeBusy(slots[i].end, busy)
  }

  /** Every slot lies within [startTime, endTime]. */
  ghost predicate WithinWindow(slots: seq<Interval>, startTime: nat, endTime: nat) {
    forall i :: 0 <= i < |slots| ==> startTime <= slots[i].start && slots[i].end <= endTime
  }

  lemma {:induction false} BusyPassBeforeSomeStart(busy: seq<Interval>, cursor: nat, size: nat, step: nat)
    requires 0 < size <= step
    ensures AllBeforeSomeBusy(BusyPass(busy, cursor, size, step).slots, busy)
    decreases |busy|
  {
    if busy != [] {
      var pre := Fill(cursor, busy[0].start, size, step);
      var next := Max(pre.cursor, busy[0].end);
      var post := BusyPass(busy[1..], next, size, step);
      BusyPassBeforeSomeStart(busy[1..], next, size, step);
      var slots := pre.slots + post.slots;
      assert slots == BusyPass(busy, cursor, size, step).slots;
      assert busy[0] in busy;
      forall i | 0 <= i < |slots| ensures BeforeSomeBusy(slots[i].end, busy) {
        if i < |pre.slots| {
          assert slots[i] == pre.slots[i];
        } else {
          assert slots[i] == post.slots[i - |pre.slots|];
          var b :| b in busy[1..] && slots[i].end <= b.start;
          assert b in busy;
        }
      }
    }
  }

  /**
    Every slot lies within [startTime, endTime], provided no busy interval
    starts after endTime.  Slots emitted before a busy interval are bounded
    only by that interval's start (see BusyPastWindowLeaks).
   */
  lemma GenerateWithinWindow(busy: seq<Interval>, startTime: nat, endTime: nat, slotSize: nat, breakTime: nat)
    requires slotSize > 0
    requires forall k :: 0 <= k < |busy| ==> busy[k].start <= endTime
    ensures WithinWindow(GenerateSlots(busy, startTime, endTime, slotSize, breakTime), startTime, endTime)
  {
    var step := slotSize + breakTime;
    var scan := BusyPass(busy, startTime, slotSize, step);
    var tail := Fill(scan.cursor, endTime, slotSize, step);
    BusyPassWithinWindow(busy, startTime, endTime, slotSize, step);
    WithinWindowAppend(scan.slots, tail.slots, startTime, endTime);
  }

  lemma BusyPassWithinWindow(busy: seq<Interval>, startTime: nat, endTime: nat, size: nat, step: nat)
    requires 0 < size <= step
    requires forall k :: 0 <= k < |busy| ==> busy[k].start <= endTime
    ensures WithinWindow(BusyPass(busy, startTime, size, step).slots, startTime, endTime)
  {
    var slots := BusyPass(busy, startTime, size, step).slots;
    BusyPassBeforeSomeStart(busy, startTime, size, step);
    forall i | 0 <= i < |slots| ensures slots[i].end <= endTime {
      var b :| b in busy && slots[i].end <= b.start;
      var k :| 0 <= k < |busy| && busy[k] == b;
    }
  }

  lemma WithinWindowAppend(a: seq<Interval>, b: seq<Interval>, startTime: nat, endTime: nat)
    requires WithinWindow(a, startTime, endTime) && WithinWindow(b, startTime, endTime)
    ensures WithinWindow(a + b, startTime, endTime)
  {
    forall i | 0 <= i < |a + b| ensures startTime <= (a + b)[i].start && (a + b)[i].end <= endTime {
      if i >= |a| {
        assert (a + b)[i] == b[i - |a|];
      }
    }
  }

  /**
    A fully booked window yields nothing: when some busy interval spans
    [startTime, endTime] and none starts after endTime, no slot is emitted.
   */
  lemma FullyBookedIsEmpty(busy: seq<Interval>, startTime: nat, endTime: nat, slotSize: nat, breakTime: nat)
    requires slotSize > 0
    requires SortedByStart(busy)
    requires forall k :: 0 <= k < |busy| ==> busy[k].start <= endTime
    requires exists k :: 0 <= k < |busy| && busy[k].start <= startTime && endTime <= busy[k].end
    ensures GenerateSlots(busy, startTime, endTime, slotSize, breakTime) == []
  {
    var r := GenerateSlots(busy, startTime, endTime, slotSize, breakTime);
    var k :| 0 <= k < |busy| && busy[k].start <= startTime && endTime <= busy[k].end;
    GenerateAvoidsBusy(busy, startTime, endTime, slotSize, breakTime);
    // Each slot starts at or after startTime, hence after the spanning busy
    // interval's start, so to avoid it the slot must start after its end.
    forall i | 0 <= i < |r| ensures endTime < r[i].end {
      assert Apart(r[i], busy[k]);
    }
    if r != [] {
      assert endTime < r[0].end;
      GenerateWithinWindow(busy, startTime, endTime, slotSize, breakTime);
      assert false;
    }
  }

  // ---------------------------------------------------------------------------
  // Where slots start: at the window start, one step after the previous slot,
  // or exactly at the end of a busy interval (no break after busy time).

  predicate IsBusyEnd(x: nat, busy: seq<Interval>) {
    exists b :: b in busy && x == b.end
  }

  /** `x` is either `prev` or the end of some busy interval. */
  predicate Anchored(x: nat, prev: nat, busy: seq<Interval>) {
    x == prev || IsBusyEnd(x, busy)
  }

  /**
    The first slot starts at `first` or at a busy end, and each later slot
    starts exactly `step` after its predecessor or at a busy end.
   */
  ghost predicate ChainAnchored(slots: seq<Interval>, first: nat, step: nat, busy: seq<Interval>) {
    && (slots != [] ==> Anchored(slots[0].start, first, busy))
    && forall i :: 0 <= i < |slots| - 1 ==> Anchored(slots[i + 1].start, slots[i].start + step, busy)
  }

  /** Where the cursor of an uninterrupted run from `first` stands after `slots`. */
  function After(slots: seq<Interval>, first: nat, step: nat): nat {
    if slots == [] then first else slots[|slots| - 1].start + step
  }

  lemma AnchoredTrans(x: nat, y: nat, z: nat, busy: seq<Interval>)
    requires Anchored(x, y, busy) && Anchored(y, z, busy)
    ensures Anchored(x, z, busy)
  {
  }

  lemma AnchoredLift(x: nat, p: nat, busy: seq<Interval>)
    requires busy != [] && Anchored(x, p, busy[1..])
    ensures Anchored(x, p, busy)
  {
    if x != p {
      var b :| b in busy[1..] && x == b.end;
      assert b in busy;
    }
  }

  lemma ChainLift(slots: seq<Interval>, first: nat, step: nat, busy: seq<Interval>)
    requires busy != [] && ChainAnchored(slots, first, step, busy[1..])
    ensures ChainAnchored(slots, first, step, busy)
  {
    if slots != [] {
      AnchoredLift(slots[0].start, first, busy);
    }
    forall i | 0 <= i < |slots| - 1 ensures Anchored(slots[i + 1].start, slots[i].start + step, busy) {
      AnchoredLift(slots[i + 1].start, slots[i].start + step, busy);
    }
  }

  lemma ChainRebase(slots: seq<Interval>, first: nat, first': nat, step: nat, busy: seq<Interval>)
    requires ChainAnchored(slots, first, step, busy) && Anchored(first, first', busy)
    ensures ChainAnchored(slots, first', step, busy)
  {
    if slots != [] {
      AnchoredTrans(slots[0].start, first, first', busy);
    }
  }

  lemma ChainAppend(a: seq<Interval>, b: seq<Interval>, first: nat, step: nat, busy: seq<Interval>)
    requires ChainAnchored(a, first, step, busy)
    requires ChainAnchored(b, After(a, first, step), step, busy)
    ensures ChainAnchored(a + b, first, step, busy)
    ensures After(a + b, first, step) == After(b, After(a, first, step), step)
  {
    var s := a + b;
    forall i | 0 <= i < |s| - 1 ensures Anchored(s[i + 1].start, s[i].start + step, busy) {
      var j := i + 1;
      if j < |a| {
        assert s[i] == a[i] && s[j] == a[j];
      } else if j == |a| {
        assert s[i] == a[|a| - 1] && s[j] == b[0];
      } else {
        assert s[i] == b[i - |a|] && s[j] == b[j - |a|];
      }
    }
    if a != [] {
      assert s[0] == a[0];
    }
    if b != [] {
      assert s[|s| - 1] == b[|b| - 1];
    }
  }

  lemma FillAnchored(cursor: nat, limit: nat, size: nat, step: nat, busy: seq<Interval>)
    requires 0 < size <= step
    ensures ChainAnchored(Fill(cursor, limit, size, step).slots, cursor, step, busy)
    ensures After(Fill(cursor, limit, size, step).slots, cursor, step) == Fill(cursor, limit, size, step).cursor
  {
    FillSpaced(cursor, limit, size, step);
  }

  lemma {:induction false} BusyPassAnchored(busy: seq<Interval>, cursor: nat, size: nat, step: nat)
    requires 0 < size <= step
    ensures ChainAnchored(BusyPass(busy, cursor, size, step).slots, cursor, step, busy)
    ensures Anchored(BusyPass(busy, cursor, size, step).cursor, After(BusyPass(busy, cursor, size, step).slots, cursor, step), busy)
    decreases |busy|
  {
    if busy != [] {
      var b := busy[0];
      var pre := Fill(cursor, b.start, size, step);
      var next := Max(pre.cursor, b.end);
      var post := BusyPass(busy[1..], next, size, step);
      FillAnchored(cursor, b.start, size, step, busy);
      var prev := After(pre.slots, cursor, step);
      assert b in busy;
      assert Anchored(next, prev, busy);
      BusyPassAnchored(busy[1..], next, size, step);
      ChainLift(post.slots, next, step, busy);
      AnchoredLift(post.cursor, After(post.slots, next, step), busy);
      ChainRebase(post.slots, next, prev, step, busy);
      ChainAppend(pre.slots, post.slots, cursor, step, busy);
      if post.slots == [] {
        AnchoredTrans(post.cursor, next, prev, busy);
      }
    }
  }

  /**
    The first slot starts at startTime or at the end of a busy interval; each
    later slot starts exactly slotSize + breakTime after the previous one (same
    free gap) or exactly at the end of a busy interval (no break is added after
    busy time).
   */
  lemma GenerateAnchored(busy: seq<Interval>, startTime: nat, endTime: nat, slotSize: nat, breakTime: nat)
    requires slotSize > 0
    ensures ChainAnchored(GenerateSlots(busy, startTime, endTime, slotSize, breakTime), startTime, slotSize + breakTime, busy)
  {
    var step := slotSize + breakTime;
    var scan := BusyPass(busy, startTime, slotSize, step);
    var tail := Fill(scan.cursor, endTime, slotSize, step);
    assert GenerateSlots(busy, startTime, endTime, slotSize, breakTime) == scan.slots + tail.slots;
    BusyPassAnchored(busy, startTime, slotSize, step);
    FillAnchored(scan.cursor, endTime, slotSize, step, busy);
    ChainRebase(tail.slots, scan.cursor, After(scan.slots, startTime, step), step, busy);
    ChainAppend(scan.slots, tail.slots, startTime, step, busy);
  }

  // ---------------------------------------------------------------------------
  // An empty busy list: evenly spaced slots from the window start

  /**
    Start of the k-th slot of an uninterrupted run from `start`: each slot
    begins one slot-plus-break after the one before.
   */
  function NthStart(start: nat, size: nat, brk: nat, k: nat): nat
    decreases k
  {
    if k == 0 then start else NthStart(start, size, brk, k - 1) + (size + brk)
  }

  /** The k-th start in closed form. */
  lemma {:induction false} NthStartClosedForm(start: nat, size: nat, brk: nat, k: nat)
    ensures NthStart(start, size, brk, k) == start + k * (size + brk)
    decreases k
  {
    if k > 0 {
      NthStartClosedForm(start, size, brk, k - 1);
      assert k * (size + brk) == (k - 1) * (size + brk) + (size + brk);
    }
  }

  lemma {:induction false} NthStartShift(start: nat, size: nat, brk: nat, k: nat)
    ensures NthStart(start + (size + brk), size, brk, k) == NthStart(start, size, brk, k + 1)
    decreases k
  {
    if k > 0 {
      NthStartShift(start, size, brk, k - 1);
    }
  }

  lemma {:induction false} NthStartMonotone(start: nat, size: nat, brk: nat, j: nat, k: nat)
    requires j <= k
    ensures NthStart(start, size, brk, j) <= NthStart(start, size, brk, k)
    decreases k
  {
    if j < k {
      NthStartMonotone(start, size, brk, j, k - 1);
    }
  }

  /** Slot i of `slots` is [NthStart(start, size, brk, i), that + size] for every i. */
  ghost predicate EvenRun(slots: seq<Interval>, start: nat, size: nat, brk: nat) {
    forall i :: 0 <= i < |slots| ==> slots[i] == Interval(NthStart(start, size, brk, i), NthStart(start, size, brk, i) + size)
  }

  lemma {:induction false} FillClosedForm(cursor: nat, limit: nat, size: nat, brk: nat)
    requires 0 < size
    ensures EvenRun(Fill(cursor, limit, size, size + brk).slots, cursor, size, brk)
    ensures Fill(cursor, limit, size, size + brk).cursor == NthStart(cursor, size, brk, |Fill(cursor, limit, size, size + brk).slots|)
    decreases limit - cursor
  {
    var r := Fill(cursor, limit, size, size + brk);
    if cursor + size <= limit {
      var rest := Fill(cursor + (size + brk), limit, size, size + brk);
      assert r.slots == [Interval(cursor, cursor + size)] + rest.slots;
      FillClosedForm(cursor + (size + brk), limit, size, brk);
      EvenRunCons(rest.slots, cursor, size, brk);
      NthStartShift(cursor, size, brk, |rest.slots|);
    } else {
      assert NthStart(cursor, size, brk, 0) == cursor;
    }
  }

  /** A slot at `start` followed by a run from the next start is a run from `start`. */
  lemma EvenRunCons(rest: seq<Interval>, start: nat, size: nat, brk: nat)
    requires EvenRun(rest, start + (size + brk), size, brk)
    ensures EvenRun([Interval(start, start + size)] + rest, start, size, brk)
  {
    var s := [Interval(start, start + size)] + rest;
    forall i | 0 <= i < |s|
      ensures s[i] == Interval(NthStart(start, size, brk, i), NthStart(start, size, brk, i) + size)
    {
      if i == 0 {
        assert NthStart(start, size, brk, 0) == start;
      } else {
        assert s[i] == rest[i - 1];
        NthStartShift(start, size, brk, i - 1);
      }
    }
  }

  /**
    With no busy intervals the result is exactly the slots starting at
    startTime + k * (slotSize + breakTime) for every k >= 0 whose slot still
    ends by endTime.
   */
  lemma GenerateNoBusy(startTime: nat, endTime: nat, slotSize: nat, breakTime: nat)
    requires slotSize > 0
    ensures EvenRun(GenerateSlots([], startTime, endTime, slotSize, breakTime), startTime, slotSize, breakTime)
    ensures forall k: nat :: k < |GenerateSlots([], startTime, endTime, slotSize, breakTime)| <==>
              NthStart(startTime, slotSize, breakTime, k) + slotSize <= endTime
  {
    var r := GenerateSlots([], startTime, endTime, slotSize, breakTime);
    var fill := Fill(startTime, endTime, slotSize, slotSize + breakTime);
    assert r == fill.slots;
    FillClosedForm(startTime, endTime, slotSize, breakTime);
    forall k: nat ensures k < |r| <==> NthStart(startTime, slotSize, breakTime, k) + slotSize <= endTime {
      if k < |r| {
        assert r[k].end <= endTime;
      } else {
        NthStartMonotone(startTime, slotSize, breakTime, |r|, k);
      }
    }
  }

  // ---------------------------------------------------------------------------
  // Busy time outside the window

  /** A busy interval ending by the cursor neither emits slots nor moves the cursor. */
  lemma BusyPassSkipsEarly(busy: seq<Interval>, cursor: nat, size: nat, step: nat)
    requires 0 < size <= step
    requires busy != [] && busy[0].start <= busy[0].end <= cursor
    ensures BusyPass(busy, cursor, size, step) == BusyPass(busy[1..], cursor, size, step)
  {
    var pre := Fill(cursor, busy[0].start, size, step);
    assert pre.slots == [];
    var post := BusyPass(busy[1..], cursor, size, step);
    assert Max(pre.cursor, busy[0].end) == cursor;
    assert pre.slots + post.slots == post.slots;
  }

  lemma {:induction false} BusyPassSkipsEarlyPrefix(busy: seq<Interval>, n: nat, cursor: nat, size: nat, step: nat)
    requires 0 < size <= step
    requires n <= |busy|
    requires forall k :: 0 <= k < n ==> busy[k].start <= busy[k].end <= cursor
    ensures BusyPass(busy, cursor, size, step) == BusyPass(busy[n..], cursor, size, step)
  {
    if n > 0 {
      BusyPassSkipsEarly(busy, cursor, size, step);
      BusyPassSkipsEarlyPrefix(busy[1..], n - 1, cursor, size, step);
      assert busy[1..][n - 1..] == busy[n..];
    }
  }

  /**
    Busy intervals that end by the window start have no effect: dropping a
    prefix of them leaves the result unchanged.
   */
  lemma EarlyBusyIgnored(busy: seq<Interval>, n: nat, startTime: nat, endTime: nat, slotSize: nat, breakTime: nat)
    requires slotSize > 0
    requires n <= |busy|
    requires forall k :: 0 <= k < n ==> busy[k].start <= busy[k].end <= startTime
    ensures GenerateSlots(busy, startTime, endTime, slotSize, breakTime) == GenerateSlots(busy[n..], startTime, endTime, slotSize, breakTime)
  {
    BusyPassSkipsEarlyPrefix(busy, n, startTime, slotSize, slotSize + breakTime);
    SamePassSameSlots(busy, busy[n..], startTime, endTime, slotSize, breakTime);
  }

  /** The scan depends on the busy list only through the busy pass. */
  lemma SamePassSameSlots(a: seq<Interval>, b: seq<Interval>, startTime: nat, endTime: nat, slotSize: nat, breakTime: nat)
    requires slotSize > 0
    requires BusyPass(a, startTime, slotSize, slotSize + breakTime) == BusyPass(b, startTime, slotSize, slotSize + breakTime)
    ensures GenerateSlots(a, startTime, endTime, slotSize, breakTime) == GenerateSlots(b, startTime, endTime, slotSize, breakTime)
  {
  }

  /**
    The fitting pass before a busy interval does not check the window end, so a
    busy interval starting after the window end lets slots through past it:
    window 08:00-09:00 with busy 10:00-11:00 yields slots up to 10:00.
   */
  lemma BusyPastWindowLeaks()
    ensures var r := GenerateSlots([Interval(600, 660)], 480, 540, 30, 0);
      && |r| == 4
      && r[3] == Interval(570, 600)
      && r[3].end > 540
  {
    assert Fill(480, 600, 30, 30).slots == [Interval(480, 510), Interval(510, 540), Interval(540, 570), Interval(570, 600)];
  }
}

=== FILE: intervals.dfy ===
/**
  Busy intervals in minutes since midnight, what it means for a list of them to
  cover an instant, and the sort by start time that precedes merging.

  An interval is closed: it covers every instant `t` (a real number of minutes)
  with `start <= t <= end`.  Closed coverage is what makes touching intervals
  such as 09:00-10:00 and 10:00-11:00 one connected busy period, which is how
  the merge treats them.
 */
module Intervals {

  datatype Interval = Interval(start: nat, end: nat)

  function Max(a: nat, b: nat): (m: nat)
    ensures m >= a && m >= b
    ensures m == a || m == b
  {
    if a >= b then a else b
  }

  /** The input requirement on a busy interval: it does not end before it starts. */
  predicate WellFormed(iv: Interval) {
    iv.start <= iv.end
  }

  predicate AllWellFormed(s: seq<Interval>) {
    forall i :: 0 <= i < |s| ==> WellFormed(s[i])
  }

  predicate Contains(iv: Interval, t: real) {
    iv.start as real <= t <= iv.end as real
  }

  /** Some interval of `s` covers instant `t`. */
  predicate Covers(s: seq<Interval>, t: real) {
    exists i :: 0 <= i < |s| && Contains(s[i], t)
  }

  predicate SortedByStart(s: seq<Interval>) {
    forall i, j :: 0 <= i < j < |s| ==> s[i].start <= s[j].start
  }

  /**
    Ascending and strictly separated: every interval is well formed and ends
    strictly before the next one starts, so no two intervals overlap or touch.
   */
  predicate Separated(s: seq<Interval>) {
    && AllWellFormed(s)
    && forall i, j :: 0 <= i < j < |s| ==> s[i].end < s[j].start
  }

  // ---------------------------------------------------------------------------
  // Sorting by start.  Any stable or unstable sort by start will do for the
  // merge (see Merge.AnySortSameMerge); this insertion sort is the one the
  // model uses.

  function Insert(x: Interval, s: seq<Interval>): (r: seq<Interval>)
    requires SortedByStart(s)
    ensures SortedByStart(r)
    ensures |r| == |s| + 1
    ensures r[0] == x || (|s| > 0 && r[0] == s[0])
  {
    if s == [] then [x]
    else if x.start <= s[0].start then [x] + s
    else [s[0]] + Insert(x, s[1..])
  }

  /** Insertion adds exactly the one interval. */
  lemma {:induction false} InsertPermutes(x: Interval, s: seq<Interval>)
    requires SortedByStart(s)
    ensures multiset(Insert(x, s)) == multiset(s) + multiset{x}
  {
    if s != [] && x.start > s[0].start {
      InsertPermutes(x, s[1..]);
      assert s == [s[0]] + s[1..];
    }
  }

  function SortByStart(s: seq<Interval>): (r: seq<Interval>)
    ensures SortedByStart(r)
    ensures |r| == |s|
  {
    if s == [] then []
    else Insert(s[0], SortByStart(s[1..]))
  }

  /** The sort only reorders: it keeps every interval, as often as it occurs. */
  lemma {:induction false} SortByStartPermutes(s: seq<Interval>)
    ensures multiset(SortByStart(s)) == multiset(s)
  {
    if s != [] {
      SortByStartPermutes(s[1..]);
      InsertPermutes(s[0], SortByStart(s[1..]));
      assert s == [s[0]] + s[1..];
    }
  }

  // ---------------------------------------------------------------------------
  // Lemmas

  /** Coverage depends only on which intervals occur, not on their order or multiplicity. */
  lemma PermutationCovers(a: seq<Interval>, b: seq<Interval>, t: real)
    requires multiset(a) == multiset(b)
    ensures Covers(a, t) <==> Covers(b, t)
  {
    if Covers(a, t) {
      var i :| 0 <= i < |a| && Contains(a[i], t);
      assert a[i] in multiset(b);
      var j :| 0 <= j < |b| && b[j] == a[i];
    }
    if Covers(b, t) {
      var j :| 0 <= j < |b| && Contains(b[j], t);
      assert b[j] in multiset(a);
      var i :| 0 <= i < |a| && a[i] == b[j];
    }
  }

  lemma PermutationWellFormed(a: seq<Interval>, b: seq<Interval>)
    requires multiset(a) == multiset(b)
    requires AllWellFormed(a)
    ensures AllWellFormed(b)
  {
    forall j | 0 <= j < |b| ensures WellFormed(b[j]) {
      assert b[j] in multiset(a);
      var i :| 0 <= i < |a| && a[i] == b[j];
    }
  }

  lemma CoversAppend(a: seq<Interval>, b: seq<Interval>, t: real)
    ensures Covers(a + b, t) <==> Covers(a, t) || Covers(b, t)
  {
    if Covers(a + b, t) {
      var i :| 0 <= i < |a + b| && Contains((a + b)[i], t);
      if i >= |a| {
        assert b[i - |a|] == (a + b)[i];
      }
    }
    if Covers(b, t) {
      var i :| 0 <= i < |b| && Contains(b[i], t);
      assert (a + b)[i + |a|] == b[i];
    }
    if Covers(a, t) {
      var i :| 0 <= i < |a| && Contains(a[i], t);
      assert (a + b)[i] == a[i];
    }
  }

  /**
    A strictly separated list is determined by the instants it covers: two
    separated lists that cover exactly the same instants are equal.  This is
    what makes the merged busy list a canonical form.
   */
  lemma {:induction false} SeparatedUnique(a: seq<Interval>, b: seq<Interval>)
    requires Separated(a) && Separated(b)
    requires forall t: real :: Covers(a, t) <==> Covers(b, t)
    ensures a == b
    decreases |a| + |b|
  {
    if a == [] || b == [] {
      if a != [] {
        assert Covers(a, a[0].start as real) by { assert Contains(a[0], a[0].start as real); }
      }
      if b != [] {
        assert Covers(b, b[0].start as real) by { assert Contains(b[0], b[0].start as real); }
      }
      return;
    }
    SameHead(a, b);
    var a' := a[1..];
    var b' := b[1..];
    forall t: real ensures Covers(a', t) <==> Covers(b', t) {
      TailCovers(a, t);
      TailCovers(b, t);
    }
    SeparatedUnique(a', b');
    assert a == [a[0]] + a' && b == [b[0]] + b';
  }

  /** Two non-empty separated lists covering the same instants start with the same interval. */
  lemma SameHead(a: seq<Interval>, b: seq<Interval>)
    requires Separated(a) && Separated(b) && a != [] && b != []
    requires forall t: real :: Covers(a, t) <==> Covers(b, t)
    ensures a[0] == b[0]
  {
    // Equal starts: the start of each head is covered, and nothing before the
    // other head's start is.
    assert Contains(a[0], a[0].start as real);
    assert Covers(a, a[0].start as real);
    assert Contains(b[0], b[0].start as real);
    assert Covers(b, b[0].start as real);
    FirstStartIsLeast(a, b[0].start as real);
    FirstStartIsLeast(b, a[0].start as real);
    // Equal ends: an instant just past the shorter head would be covered by
    // the longer head but by nothing in the other list.
    if a[0].end < b[0].end {
      GapAfterHead(a, b[0].end as real);
    } else if b[0].end < a[0].end {
      GapAfterHead(b, a[0].end as real);
    }
  }

  lemma FirstStartIsLeast(s: seq<Interval>, t: real)
    requires Separated(s) && s != []
    requires Covers(s, t)
    ensures s[0].start as real <= t
  {
    var i :| 0 <= i < |s| && Contains(s[i], t);
    if i > 0 {
      assert s[0].end < s[i].start;
    }
  }

  /**
    Past the end of the first interval of a separated list there is an instant,
    below any given bound beyond that end, that the list does not cover.
   */
  lemma GapAfterHead(s: seq<Interval>, bound: real)
    requires Separated(s) && s != []
    requires s[0].end as real < bound
    ensures exists t: real :: s[0].end as real < t < bound && !Covers(s, t)
  {
    var hi := if |s| > 1 && (s[1].start as real) < bound then s[1].start as real else bound;
    var t := (s[0].end as real + hi) / 2.0;
    if |s| > 1 {
      assert s[0].end < s[1].start;
    }
    forall i | 0 <= i < |s| ensures !Contains(s[i], t) {
      if i > 1 {
        assert s[1].start < s[i].start by {
          assert s[1].end < s[i].start;
        }
      }
    }
    assert !Covers(s, t);
  }

  /**
    An instant just past the end of interval `k` of a separated list, below
    `bound` and below the next interval's start.
   */
  function GapPoint(s: seq<Interval>, k: nat, bound: real): real
    requires k < |s|
  {
    var hi := if k + 1 < |s| && (s[k + 1].start as real) < bound then s[k + 1].start as real else bound;
    (s[k].end as real + hi) / 2.0
  }

  /** Whenever interval `k` ends before `bound`, the list leaves a gap between them. */
  lemma GapAfter(s: seq<Interval>, k: nat, bound: real)
    requires Separated(s) && k < |s|
    ensures s[k].end as real < bound ==>
              s[k].end as real < GapPoint(s, k, bound) < bound && !Covers(s, GapPoint(s, k, bound))
  {
    var t := GapPoint(s, k, bound);
    if s[k].end as real < bound {
      if k + 1 < |s| {
        assert s[k].end < s[k + 1].start;
      }
      forall i | 0 <= i < |s| ensures !Contains(s[i], t) {
        if i < k {
          assert s[i].end < s[k].start;
        } else if i > k + 1 {
          assert s[k + 1].end < s[i].start;
        }
      }
    }
  }

  /** Dropping the head of a separated list removes exactly the instants up to the head's end. */
  lemma TailCovers(s: seq<Interval>, t: real)
    requires Separated(s) && s != []
    ensures Covers(s[1..], t) <==> Covers(s, t) && s[0].end as real < t
  {
    if Covers(s[1..], t) {
      var i :| 0 <= i < |s[1..]| && Contains(s[1..][i], t);
      assert s[i + 1] == s[1..][i];
      assert s[0].end < s[i + 1].start;
    }
    if Covers(s, t) && s[0].end as real < t {
      var i :| 0 <= i < |s| && Contains(s[i], t);
      assert i != 0;
      assert s[1..][i - 1] == s[i];
    }
  }
}

=== FILE: merge.dfy ===
/**
  Consolidation of busy periods (mergeOverlappingSlots): sort by start, then one
  pass that folds every interval starting at or before the end of the interval
  being built into it.  The result is the canonical form of the busy time:
  ascending, strictly separated, and covering exactly the instants the input
  covers.
 */
module Merge {
  import opened Intervals

  /**
    The single pass over a list sorted by start.  The merged list built so far
    is `done + [cur]`, where `cur` is its last interval, still open to growth;
    `rest` is what has not been looked at.
   */
  function MergeRun(done: seq<Interval>, cur: Interval, rest: seq<Interval>): (r: seq<Interval>)
    ensures |done| < |r| <= |done| + 1 + |rest|
    ensures done <= r
    decreases |rest|
  {
    if rest == [] then done + [cur]
    else if rest[0].start <= cur.end then
      MergeRun(done, Interval(cur.start, Max(cur.end, rest[0].end)), rest[1..])
    else
      MergeRun(done + [cur], rest[0], rest[1..])
  }

  /** Merges a list already sorted by start. */
  function MergeSorted(sorted: seq<Interval>): (r: seq<Interval>)
    ensures |r| <= |sorted|
    ensures r == [] <==> sorted == []
  {
    if sorted == [] then [] else MergeRun([], sorted[0], sorted[1..])
  }

  /** mergeOverlappingSlots in minutes: empty stays empty, otherwise sort and merge. */
  function MergeIntervals(busy: seq<Interval>): (r: seq<Interval>)
    ensures |r| <= |busy|
    ensures r == [] <==> busy == []
  {
    if |busy| == 0 then [] else MergeSorted(SortByStart(busy))
  }

  /**
    mergeOverlappingSlots as written: an empty list short-circuits, otherwise
    the list is sorted by start and handed to the merge loop.
   */
  method MergeOverlapping(busy: seq<Interval>) returns (merged: seq<Interval>)
    ensures merged == MergeIntervals(busy)
  {
    if |busy| == 0 {
      return [];
    }
    merged := MergeLoop(SortByStart(busy));
  }

  /**
    The merge loop as written, with the in-place update of the last merged
    interval when the next interval starts at or before its end.
   */
  method MergeLoop(sorted: seq<Interval>) returns (merged: seq<Interval>)
    requires |sorted| > 0
    ensures merged == MergeSorted(sorted)
  {
    merged := [sorted[0]];
    var i := 1;
    while i < |sorted|
      invariant 1 <= i <= |sorted|
      invariant |merged| > 0
      invariant MergeRun(merged[..|merged| - 1], merged[|merged| - 1], sorted[i..]) == MergeSorted(sorted)
    {
      var current := sorted[i];
      var last := merged[|merged| - 1];
      ghost var prefix := merged[..|merged| - 1];
      assert sorted[i..] == [current] + sorted[i + 1..];
      if current.start <= last.end {
        var grown := Interval(last.start, Max(last.end, current.end));
        merged := merged[|merged| - 1 := grown];
        assert merged[..|merged| - 1] == prefix;
      } else {
        merged := merged + [current];
        assert merged[..|merged| - 1] == prefix + [last];
      }
      i := i + 1;
    }
    assert sorted[i..] == [];
    assert merged[..|merged| - 1] + [merged[|merged| - 1]] == merged;
  }

  // ---------------------------------------------------------------------------
  // Coverage

  lemma CoversCons(s: seq<Interval>, t: real)
    requires s != []
    ensures Covers(s, t) <==> Contains(s[0], t) || Covers(s[1..], t)
  {
    assert s == [s[0]] + s[1..];
    CoversAppend([s[0]], s[1..], t);
    assert Covers([s[0]], t) <==> Contains(s[0], t) by {
      assert [s[0]][0] == s[0];
    }
  }

  lemma {:induction false} MergeRunCovers(done: seq<Interval>, cur: Interval, rest: seq<Interval>, t: real)
    requires SortedByStart(rest)
    requires forall k :: 0 <= k < |rest| ==> cur.start <= rest[k].start
    ensures Covers(MergeRun(done, cur, rest), t) <==> Covers(done, t) || Contains(cur, t) || Covers(rest, t)
    decreases |rest|
  {
    CoversAppend(done, [cur], t);
    assert Covers([cur], t) <==> Contains(cur, t) by {
      assert [cur][0] == cur;
    }
    if rest != [] {
      CoversCons(rest, t);
      var next := rest[0];
      if next.start <= cur.end {
        var grown := Interval(cur.start, Max(cur.end, next.end));
        MergeRunCovers(done, grown, rest[1..], t);
        assert Contains(grown, t) <==> Contains(cur, t) || Contains(next, t);
      } else {
        MergeRunCovers(done + [cur], next, rest[1..], t);
      }
    }
  }

  lemma MergeSortedCovers(sorted: seq<Interval>, t: real)
    requires SortedByStart(sorted)
    ensures Covers(MergeSorted(sorted), t) <==> Covers(sorted, t)
  {
    if sorted != [] {
      MergeRunCovers([], sorted[0], sorted[1..], t);
      CoversCons(sorted, t);
    }
  }

  /** A minute (indeed any instant) is busy after merging iff it was busy before. */
  lemma MergeCovers(busy: seq<Interval>, t: real)
    ensures Covers(MergeIntervals(busy), t) <==> Covers(busy, t)
  {
    if busy != [] {
      SortByStartPermutes(busy);
      MergeSortedCovers(SortByStart(busy), t);
      PermutationCovers(SortByStart(busy), busy, t);
    }
  }

  // ---------------------------------------------------------------------------
  // Separation

  lemma {:induction false} MergeRunSeparated(done: seq<Interval>, cur: Interval, rest: seq<Interval>)
    requires Separated(done + [cur])
    requires AllWellFormed(rest) && SortedByStart(rest)
    requires forall k :: 0 <= k < |rest| ==> cur.start <= rest[k].start
    ensures Separated(MergeRun(done, cur, rest))
    decreases |rest|
  {
    if rest != [] {
      var next := rest[0];
      assert (done + [cur])[|done|] == cur;
      if next.start <= cur.end {
        var grown := Interval(cur.start, Max(cur.end, next.end));
        assert Separated(done + [grown]) by {
          assert WellFormed(cur);
          forall i | 0 <= i < |done + [grown]| ensures WellFormed((done + [grown])[i]) {
            if i < |done| {
              assert (done + [cur])[i] == (done + [grown])[i];
            }
          }
          forall i, j | 0 <= i < j < |done + [grown]|
            ensures (done + [grown])[i].end < (done + [grown])[j].start
          {
            assert (done + [cur])[i] == (done + [grown])[i];
            if j < |done| {
              assert (done + [cur])[j] == (done + [grown])[j];
            }
          }
        }
        MergeRunSeparated(done, grown, rest[1..]);
      } else {
        assert Separated(done + [cur] + [next]) by {
          var s := done + [cur] + [next];
          forall i, j | 0 <= i < j < |s| ensures s[i].end < s[j].start {
            if j == |s| - 1 && i < |done| {
              assert (done + [cur])[i].end < (done + [cur])[|done|].start;
            }
          }
          assert WellFormed(rest[0]);
        }
        MergeRunSeparated(done + [cur], next, rest[1..]);
      }
    }
  }

  lemma MergeSortedSeparated(sorted: seq<Interval>)
    requires AllWellFormed(sorted) && SortedByStart(sorted)
    ensures Separated(MergeSorted(sorted))
  {
    if sorted != [] {
      assert [] + [sorted[0]] == [sorted[0]];
      MergeRunSeparated([], sorted[0], sorted[1..]);
    }
  }

  /**
    The merged busy list is ascending, well formed and strictly separated: for
    consecutive a, b it has a.start <= a.end < b.start, so no overlapping or
    touching intervals survive.
   */
  lemma MergeSeparated(busy: seq<Interval>)
    requires AllWellFormed(busy)
    ensures Separated(MergeIntervals(busy))
  {
    if busy != [] {
      SortByStartPermutes(busy);
      PermutationWellFormed(busy, SortByStart(busy));
      MergeSortedSeparated(SortByStart(busy));
    }
  }

  // ---------------------------------------------------------------------------
  // Endpoints

  /** Some interval of `s` starts at `x`. */
  ghost predicate StartOf(x: nat, s: seq<Interval>) {
    exists y :: y in s && y.start == x
  }

  /** Some interval of `s` ends at `x`. */
  ghost predicate EndOf(x: nat, s: seq<Interval>) {
    exists y :: y in s && y.end == x
  }

  /** Every endpoint the merge produces is an endpoint of its input. */
  ghost predicate EndpointsFrom(r: seq<Interval>, s: seq<Interval>) {
    forall i :: 0 <= i < |r| ==> StartOf(r[i].start, s) && EndOf(r[i].end, s)
  }

  lemma {:induction false} MergeRunEndpoints(done: seq<Interval>, cur: Interval, rest: seq<Interval>, src: seq<Interval>)
    requires EndpointsFrom(done + [cur], src)
    requires forall y :: y in rest ==> y in src
    ensures EndpointsFrom(MergeRun(done, cur, rest), src)
    decreases |rest|
  {
    if rest != [] {
      var next := rest[0];
      assert next in src;
      assert (done + [cur])[|done|] == cur;
      if next.start <= cur.end {
        var grown := Interval(cur.start, Max(cur.end, next.end));
        forall i | 0 <= i < |done + [grown]| ensures StartOf((done + [grown])[i].start, src) && EndOf((done + [grown])[i].end, src) {
          if i < |done| {
            assert (done + [grown])[i] == (done + [cur])[i];
          }
        }
        MergeRunEndpoints(done, grown, rest[1..], src);
      } else {
        forall i | 0 <= i < |done + [cur] + [next]|
          ensures StartOf((done + [cur] + [next])[i].start, src) && EndOf((done + [cur] + [next])[i].end, src)
        {
          if i <= |done| {
            assert (done + [cur] + [next])[i] == (done + [cur])[i];
          }
        }
        MergeRunEndpoints(done + [cur], next, rest[1..], src);
      }
    }
  }

  /** Each merged interval starts at the start and ends at the end of some input interval. */
  lemma MergeEndpoints(busy: seq<Interval>)
    ensures EndpointsFrom(MergeIntervals(busy), busy)
  {
    if busy != [] {
      var sorted := SortByStart(busy);
      SortByStartPermutes(busy);
      forall y | y in sorted ensures y in busy {
        assert y in multiset(sorted);
      }
      assert sorted[0] in busy;
      assert [] + [sorted[0]] == [sorted[0]];
      MergeRunEndpoints([], sorted[0], sorted[1..], busy);
    }
  }

  // ---------------------------------------------------------------------------
  // Canonical form: order invariance and idempotence

  /**
    Whatever sort by start is used (ties in any order), the merge is the same:
    the choice of sort is unobservable.
   */
  lemma AnySortSameMerge(busy: seq<Interval>, sorted: seq<Interval>)
    requires AllWellFormed(busy)
    requires SortedByStart(sorted) && multiset(sorted) == multiset(busy)
    ensures MergeSorted(sorted) == MergeIntervals(busy)
  {
    PermutationWellFormed(busy, sorted);
    MergeSortedSeparated(sorted);
    MergeSeparated(busy);
    forall t: real ensures Covers(MergeSorted(sorted), t) <==> Covers(MergeIntervals(busy), t) {
      MergeSortedCovers(sorted, t);
      PermutationCovers(sorted, busy, t);
      MergeCovers(busy, t);
    }
    SeparatedUnique(MergeSorted(sorted), MergeIntervals(busy));
  }

  /** Reordering the busy list does not change the merged list. */
  lemma MergePermutationInvariant(a: seq<Interval>, b: seq<Interval>)
    requires AllWellFormed(a)
    requires multiset(a) == multiset(b)
    ensures MergeIntervals(a) == MergeIntervals(b)
  {
    PermutationWellFormed(a, b);
    MergeSeparated(a);
    MergeSeparated(b);
    forall t: real ensures Covers(MergeIntervals(a), t) <==> Covers(MergeIntervals(b), t) {
      MergeCovers(a, t);
      MergeCovers(b, t);
      PermutationCovers(a, b, t);
    }
    SeparatedUnique(MergeIntervals(a), MergeIntervals(b));
  }

  /** Merging an ascending, strictly separated list returns it unchanged. */
  lemma MergeIdempotent(s: seq<Interval>)
    requires Separated(s)
    ensures MergeIntervals(s) == s
  {
    MergeSeparated(s);
    forall t: real ensures Covers(MergeIntervals(s), t) <==> Covers(s, t) {
      MergeCovers(s, t);
    }
    SeparatedUnique(MergeIntervals(s), s);
  }

  /** Merging twice is merging once. */
  lemma MergeTwice(busy: seq<Interval>)
    requires AllWellFormed(busy)
    ensures MergeIntervals(MergeIntervals(busy)) == MergeIntervals(busy)
  {
    MergeSeparated(busy);
    MergeIdempotent(MergeIntervals(busy));
  }

  /**
    The properties above assume start <= end. A reversed range can block the
    merge of a later range with the same start, so the order of the input then
    matters: the stable sort keeps the two ranges as they came.
   */
  lemma ReversedRangeOrderMatters()
    ensures MergeIntervals([Interval(5, 3), Interval(5, 10)]) == [Interval(5, 3), Interval(5, 10)]
    ensures MergeIntervals([Interval(5, 10), Interval(5, 3)]) == [Interval(5, 10)]
  {
  }
}

=== FILE: scenarios.dfy ===
/**
  The scenarios of the repository's test file, as lemmas.

  Each scenario is stated on the minute-level pipeline `FindSlots`, with the
  test's "HH:MM" strings written as minutes since midnight (09:00 is 540,
  18:00 is 1080).  An expected answer is written as runs of evenly spaced
  slots: `Run(c, size, step, n)` is `n` slots of `size` minutes, the first at
  `c`, each starting `step` minutes after the one before.  For example
  `Run(480, 30, 30, 2)` is 08:00-08:30 and 08:30-09:00.

  A scenario is proved in four steps, each its own lemma: the merge of the
  busy list, the pass over the merged busy intervals, the whole scan, and the
  composition.  The busy list is a parameter fixed by a precondition, so the
  solver follows the proof rather than evaluating the pipeline on literals.
  Three scenarios are also stated end to end on strings through `Slots`.
 */
module Scenarios {
  import opened Time
  import opened Intervals
  import opened Merge
  import opened Generate
  import opened AvailableSlots

  /** `n` slots of `size` minutes, the first at `c`, each `step` after the previous one. */
  function Run(c: nat, size: nat, step: nat, n: nat): (r: seq<Interval>)
    ensures |r| == n
    decreases n
  {
    if n == 0 then [] else [Interval(c, c + size)] + Run(c + step, size, step, n - 1)
  }

  // ---------------------------------------------------------------------------
  // Evaluation steps shared by the scenarios

  /** A run in closed form is a `Run`. */
  lemma {:induction false} EvenRunIsRun(s: seq<Interval>, c: nat, size: nat, brk: nat)
    requires EvenRun(s, c, size, brk)
    ensures s == Run(c, size, size + brk, |s|)
    decreases |s|
  {
    if s != [] {
      assert s[0] == Interval(NthStart(c, size, brk, 0), NthStart(c, size, brk, 0) + size);
      forall i | 0 <= i < |s[1..]|
        ensures s[1..][i] == Interval(NthStart(c + (size + brk), size, brk, i), NthStart(c + (size + brk), size, brk, i) + size)
      {
        NthStartShift(c, size, brk, i);
        assert s[1..][i] == s[i + 1];
      }
      EvenRunIsRun(s[1..], c + (size + brk), size, brk);
      assert s == [s[0]] + s[1..];
    }
  }

  /**
    A fitting pass in which exactly `n` slots fit (the n-th ends by the limit,
    one more would not) emits the run of `n` slots and leaves the cursor where
    the next slot would start.
   */
  lemma FillIsRun(c: nat, limit: nat, size: nat, brk: nat, n: nat)
    requires 0 < size
    requires n > 0 ==> c + (n - 1) * (size + brk) + size <= limit
    requires limit < c + n * (size + brk) + size
    ensures Fill(c, limit, size, size + brk) == Scan(Run(c, size, size + brk, n), c + n * (size + brk))
  {
    var r := Fill(c, limit, size, size + brk);
    FillClosedForm(c, limit, size, brk);
    NthStartClosedForm(c, size, brk, n);
    if n > 0 {
      NthStartClosedForm(c, size, brk, n - 1);
    }
    var m := |r.slots|;
    forall i | 0 <= i < m ensures NthStart(c, size, brk, i) + size <= limit {
      assert r.slots[i].end <= limit;
    }
    assert m <= n;
    if m < n {
      NthStartMonotone(c, size, brk, m, n - 1);
    }
    assert m == n;
    EvenRunIsRun(r.slots, c, size, brk);
  }

  /** One step of the busy pass: fill up to busy interval `j`, then continue past its end. */
  lemma PassAt(busy: seq<Interval>, j: nat, c: nat, size: nat, step: nat, pre: Scan, post: Scan)
    requires j < |busy| && 0 < size <= step
    requires Fill(c, busy[j].start, size, step) == pre
    requires BusyPass(busy[j + 1..], Max(pre.cursor, busy[j].end), size, step) == post
    ensures BusyPass(busy[j..], c, size, step) == Scan(pre.slots + post.slots, post.cursor)
  {
    BusyPassAt(busy, j, c, size, step);
  }

  /** The scan is the busy pass followed by the fitting pass against the window end. */
  lemma Generated(busy: seq<Interval>, startTime: nat, endTime: nat, size: nat, brk: nat, pass: Scan, last: Scan)
    requires 0 < size
    requires BusyPass(busy, startTime, size, size + brk) == pass
    requires Fill(pass.cursor, endTime, size, size + brk) == last
    ensures GenerateSlots(busy, startTime, endTime, size, brk) == pass.slots + last.slots
  {
  }

  /** A separated list covering exactly the instants the busy list covers is its merge. */
  lemma MergedTo(busy: seq<Interval>, target: seq<Interval>)
    requires AllWellFormed(busy) && Separated(target)
    requires forall t: real :: Covers(busy, t) <==> Covers(target, t)
    ensures MergeIntervals(busy) == target
  {
    MergeSeparated(busy);
    forall t: real ensures Covers(MergeIntervals(busy), t) <==> Covers(target, t) {
      MergeCovers(busy, t);
    }
    SeparatedUnique(MergeIntervals(busy), target);
  }

  // ---------------------------------------------------------------------------
  // Basic usage: 30-minute slots, no breaks, two busy ranges.

  lemma BasicUsageFill0(busy: seq<Interval>)
    requires busy == [Interval(540, 630), Interval(840, 930)]
    ensures Fill(480, busy[0].start, 30, 30) == Scan(Run(480, 30, 30, 2), 540)
  {
    FillIsRun(480, busy[0].start, 30, 0, 2);
  }

  lemma BasicUsageFill1(busy: seq<Interval>)
    requires busy == [Interval(540, 630), Interval(840, 930)]
    ensures Fill(630, busy[1].start, 30, 30) == Scan(Run(630, 30, 30, 7), 840)
  {
    FillIsRun(630, busy[1].start, 30, 0, 7);
  }

  lemma BasicUsagePass1(busy: seq<Interval>)
    requires busy == [Interval(540, 630), Interval(840, 930)]
    ensures BusyPass(busy[1..], 630, 30, 30) == Scan(Run(630, 30, 30, 7), 930)
  {
    BasicUsageFill1(busy);
    assert busy[2..] == [];
    PassAt(busy, 1, 630, 30, 30, Scan(Run(630, 30, 30, 7), 840), Scan([], 930));
    assert Run(630, 30, 30, 7) + [] == Run(630, 30, 30, 7);
  }

  lemma BasicUsagePass0(busy: seq<Interval>)
    requires busy == [Interval(540, 630), Interval(840, 930)]
    ensures BusyPass(busy, 480, 30, 30) == Scan(Run(480, 30, 30, 2) + Run(630, 30, 30, 7), 930)
  {
    assert busy[0..] == busy;
    BasicUsageFill0(busy);
    BasicUsagePass1(busy);
    PassAt(busy, 0, 480, 30, 30, Scan(Run(480, 30, 30, 2), 540), Scan(Run(630, 30, 30, 7), 930));
  }

  lemma BasicUsageScan(busy: seq<Interval>)
    requires busy == [Interval(540, 630), Interval(840, 930)]
    ensures GenerateSlots(busy, 480, 1080, 30, 0) == Run(480, 30, 30, 2) + Run(630, 30, 30, 7) + Run(930, 30, 30, 5)
  {
    BasicUsagePass0(busy);
    FillIsRun(930, 1080, 30, 0, 5);
    Generated(busy, 480, 1080, 30, 0, Scan(Run(480, 30, 30, 2) + Run(630, 30, 30, 7), 930), Scan(Run(930, 30, 30, 5), 1080));
  }

  /** Busy 09:00-10:30 and 14:00-15:30 in the default 08:00-18:00 window, 30-minute slots. */
  lemma BasicUsage(busy: seq<Interval>)
    requires busy == [Interval(540, 630), Interval(840, 930)]
    ensures FindSlots(busy, 480, 1080, 30, 0) == Run(480, 30, 30, 2) + Run(630, 30, 30, 7) + Run(930, 30, 30, 5)
  {
    MergeIdempotent(busy);
    BasicUsageScan(MergeIntervals(busy));
  }

  // ---------------------------------------------------------------------------
  // Custom slot size and breaks.

  lemma CustomSizeAndBreakFill0(busy: seq<Interval>)
    requires busy == [Interval(540, 630), Interval(840, 930)]
    ensures Fill(480, busy[0].start, 45, 60) == Scan(Run(480, 45, 60, 1), 540)
  {
    FillIsRun(480, busy[0].start, 45, 15, 1);
  }

  lemma CustomSizeAndBreakFill1(busy: seq<Interval>)
    requires busy == [Interval(540, 630), Interval(840, 930)]
    ensures Fill(630, busy[1].start, 45, 60) == Scan(Run(630, 45, 60, 3), 810)
  {
    FillIsRun(630, busy[1].start, 45, 15, 3);
  }

  lemma CustomSizeAndBreakPass1(busy: seq<Interval>)
    requires busy == [Interval(540, 630), Interval(840, 930)]
    ensures BusyPass(busy[1..], 630, 45, 60) == Scan(Run(630, 45, 60, 3), 930)
  {
    CustomSizeAndBreakFill1(busy);
    assert busy[2..] == [];
    PassAt(busy, 1, 630, 45, 60, Scan(Run(630, 45, 60, 3), 810), Scan([], 930));
    assert Run(630, 45, 60, 3) + [] == Run(630, 45, 60, 3);
  }

  lemma CustomSizeAndBreakPass0(busy: seq<Interval>)
    requires busy == [Interval(540, 630), Interval(840, 930)]
    ensures BusyPass(busy, 480, 45, 60) == Scan(Run(480, 45, 60, 1) + Run(630, 45, 60, 3), 930)
  {
    assert busy[0..] == busy;
    CustomSizeAndBreakFill0(busy);
    CustomSizeAndBreakPass1(busy);
    PassAt(busy, 0, 480, 45, 60, Scan(Run(480, 45, 60, 1), 540), Scan(Run(630, 45, 60, 3), 930));
  }

  lemma CustomSizeAndBreakScan(busy: seq<Interval>)
    requires busy == [Interval(540, 630), Interval(840, 930)]
    ensures GenerateSlots(busy, 480, 1080, 45, 15) == Run(480, 45, 60, 1) + Run(630, 45, 60, 3) + Run(930, 45, 60, 2)
  {
    CustomSizeAndBreakPass0(busy);
    FillIsRun(930, 1080, 45, 15, 2);
    Generated(busy, 480, 1080, 45, 15, Scan(Run(480, 45, 60, 1) + Run(630, 45, 60, 3), 930), Scan(Run(930, 45, 60, 2), 1050));
  }

  /** The same busy ranges with 45-minute slots and 15-minute breaks. */
  lemma CustomSizeAndBreak(busy: seq<Interval>)
    requires busy == [Interval(540, 630), Interval(840, 930)]
    ensures FindSlots(busy, 480, 1080, 45, 15) == Run(480, 45, 60, 1) + Run(630, 45, 60, 3) + Run(930, 45, 60, 2)
  {
    MergeIdempotent(busy);
    CustomSizeAndBreakScan(MergeIntervals(busy));
  }

  // ---------------------------------------------------------------------------
  // No busy ranges.

  lemma NoBusyFullWindowScan(busy: seq<Interval>)
    requires busy == []
    ensures GenerateSlots(busy, 540, 720, 30, 0) == Run(540, 30, 30, 6)
  {
    FillIsRun(540, 720, 30, 0, 6);
    Generated(busy, 540, 720, 30, 0, Scan([], 540), Scan(Run(540, 30, 30, 6), 720));
    assert [] + Run(540, 30, 30, 6) == Run(540, 30, 30, 6);
  }

  /** No busy ranges: the window 09:00-12:00 is cut into six half hours. */
  lemma NoBusyFullWindow(busy: seq<Interval>)
    requires busy == []
    ensures FindSlots(busy, 540, 720, 30, 0) == Run(540, 30, 30, 6)
  {
    NoBusyFullWindowScan(MergeIntervals(busy));
  }

  // ---------------------------------------------------------------------------
  // Overlapping busy ranges are merged.

  lemma OverlappingBusyCoverage(busy: seq<Interval>, merged: seq<Interval>)
    requires busy == [Interval(540, 630), Interval(600, 660), Interval(645, 720)]
    requires merged == [Interval(540, 720)]
    ensures forall t: real :: Covers(busy, t) <==> Covers(merged, t)
  {
    forall t: real ensures Covers(busy, t) <==> Covers(merged, t) {
      if Covers(busy, t) {
        var i :| 0 <= i < |busy| && Contains(busy[i], t);
        if i == 0 {
          assert Contains(merged[0], t);
        } else if i == 1 {
          assert Contains(merged[0], t);
        } else if i == 2 {
          assert Contains(merged[0], t);
        }
      }
      if Covers(merged, t) {
        var j :| 0 <= j < |merged| && Contains(merged[j], t);
        if j == 0 {
          if t <= 630.0 {
            assert Contains(busy[0], t);
          } else if t <= 660.0 {
            assert Contains(busy[1], t);
          } else {
            assert Contains(busy[2], t);
          }
        }
      }
    }
  }

  lemma OverlappingBusyMerged(busy: seq<Interval>)
    requires busy == [Interval(540, 630), Interval(600, 660), Interval(645, 720)]
    ensures MergeIntervals(busy) == [Interval(540, 720)]
  {
    OverlappingBusyCoverage(busy, [Interval(540, 720)]);
    MergedTo(busy, [Interval(540, 720)]);
  }

  lemma OverlappingBusyFill0(busy: seq<Interval>)
    requires busy == [Interval(540, 720)]
    ensures Fill(480, busy[0].start, 30, 30) == Scan(Run(480, 30, 30, 2), 540)
  {
    FillIsRun(480, busy[0].start, 30, 0, 2);
  }

  lemma OverlappingBusyPass0(busy: seq<Interval>)
    requires busy == [Interval(540, 720)]
    ensures BusyPass(busy, 480, 30, 30) == Scan(Run(480, 30, 30, 2), 720)
  {
    assert busy[0..] == busy;
    OverlappingBusyFill0(busy);
    assert busy[1..] == [];
    PassAt(busy, 0, 480, 30, 30, Scan(Run(480, 30, 30, 2), 540), Scan([], 720));
    assert Run(480, 30, 30, 2) + [] == Run(480, 30, 30, 2);
  }

  lemma OverlappingBusyScan(busy: seq<Interval>)
    requires busy == [Interval(540, 720)]
    ensures GenerateSlots(busy, 480, 780, 30, 0) == Run(480, 30, 30, 2) + Run(720, 30, 30, 2)
  {
    OverlappingBusyPass0(busy);
    FillIsRun(720, 780, 30, 0, 2);
    Generated(busy, 480, 780, 30, 0, Scan(Run(480, 30, 30, 2), 720), Scan(Run(720, 30, 30, 2), 780));
  }

  /** Busy 09:00-10:30, 10:00-11:00 and 10:45-12:00 form one busy period 09:00-12:00. */
  lemma OverlappingBusy(busy: seq<Interval>)
    requires busy == [Interval(540, 630), Interval(600, 660), Interval(645, 720)]
    ensures FindSlots(busy, 480, 780, 30, 0) == Run(480, 30, 30, 2) + Run(720, 30, 30, 2)
  {
    OverlappingBusyMerged(busy);
    OverlappingBusyScan(MergeIntervals(busy));
  }

  // ---------------------------------------------------------------------------
  // Adjacent busy ranges are merged.

  lemma AdjacentBusyCoverage(busy: seq<Interval>, merged: seq<Interval>)
    requires busy == [Interval(540, 600), Interval(600, 660)]
    requires merged == [Interval(540, 660)]
    ensures forall t: real :: Covers(busy, t) <==> Covers(merged, t)
  {
    forall t: real ensures Covers(busy, t) <==> Covers(merged, t) {
      if Covers(busy, t) {
        var i :| 0 <= i < |busy| && Contains(busy[i], t);
        if i == 0 {
          assert Contains(merged[0], t);
        } else if i == 1 {
          assert Contains(merged[0], t);
        }
      }
      if Covers(merged, t) {
        var j :| 0 <= j < |merged| && Contains(merged[j], t);
        if j == 0 {
          if t <= 600.0 {
            assert Contains(busy[0], t);
          } else {
            assert Contains(busy[1], t);
          }
        }
      }
    }
  }

  lemma AdjacentBusyMerged(busy: seq<Interval>)
    requires busy == [Interval(540, 600), Interval(600, 660)]
    ensures MergeIntervals(busy) == [Interval(540, 660)]
  {
    AdjacentBusyCoverage(busy, [Interval(540, 660)]);
    MergedTo(busy, [Interval(540, 660)]);
  }

  lemma AdjacentBusyFill0(busy: seq<Interval>)
    requires busy == [Interval(540, 660)]
    ensures Fill(480, busy[0].start, 30, 30) == Scan(Run(480, 30, 30, 2), 540)
  {
    FillIsRun(480, busy[0].start, 30, 0, 2);
  }

  lemma AdjacentBusyPass0(busy: seq<Interval>)
    requires busy == [Interval(540, 660)]
    ensures BusyPass(busy, 480, 30, 30) == Scan(Run(480, 30, 30, 2), 660)
  {
    assert busy[0..] == busy;
    AdjacentBusyFill0(busy);
    assert busy[1..] == [];
    PassAt(busy, 0, 480, 30, 30, Scan(Run(480, 30, 30, 2), 540), Scan([], 660));
    assert Run(480, 30, 30, 2) + [] == Run(480, 30, 30, 2);
  }

  lemma AdjacentBusyScan(busy: seq<Interval>)
    requires busy == [Interval(540, 660)]
    ensures GenerateSlots(busy, 480, 720, 30, 0) == Run(480, 30, 30, 2) + Run(660, 30, 30, 2)
  {
    AdjacentBusyPass0(busy);
    FillIsRun(660, 720, 30, 0, 2);
    Generated(busy, 480, 720, 30, 0, Scan(Run(480, 30, 30, 2), 660), Scan(Run(660, 30, 30, 2), 720));
  }

  /** Busy 09:00-10:00 and 10:00-11:00 touch and form one busy period 09:00-11:00. */
  lemma AdjacentBusy(busy: seq<Interval>)
    requires busy == [Interval(540, 600), Interval(600, 660)]
    ensures FindSlots(busy, 480, 720, 30, 0) == Run(480, 30, 30, 2) + Run(660, 30, 30, 2)
  {
    AdjacentBusyMerged(busy);
    AdjacentBusyScan(MergeIntervals(busy));
  }

  // ---------------------------------------------------------------------------
  // Busy ranges reaching outside the working hours.

  lemma OutsideHoursFill0(busy: seq<Interval>)
    requires busy == [Interval(420, 510), Interval(1050, 1140)]
    ensures Fill(480, busy[0].start, 30, 30) == Scan(Run(480, 30, 30, 0), 480)
  {
    FillIsRun(480, busy[0].start, 30, 0, 0);
  }

  lemma OutsideHoursFill1(busy: seq<Interval>)
    requires busy == [Interval(420, 510), Interval(1050, 1140)]
    ensures Fill(510, busy[1].start, 30, 30) == Scan(Run(510, 30, 30, 18), 1050)
  {
    FillIsRun(510, busy[1].start, 30, 0, 18);
  }

  lemma OutsideHoursPass1(busy: seq<Interval>)
    requires busy == [Interval(420, 510), Interval(1050, 1140)]
    ensures BusyPass(busy[1..], 510, 30, 30) == Scan(Run(510, 30, 30, 18), 1140)
  {
    OutsideHoursFill1(busy);
    assert busy[2..] == [];
    PassAt(busy, 1, 510, 30, 30, Scan(Run(510, 30, 30, 18), 1050), Scan([], 1140));
    assert Run(510, 30, 30, 18) + [] == Run(510, 30, 30, 18);
  }

  lemma OutsideHoursPass0(busy: seq<Interval>)
    requires busy == [Interval(420, 510), Interval(1050, 1140)]
    ensures BusyPass(busy, 480, 30, 30) == Scan(Run(510, 30, 30, 18), 1140)
  {
    assert busy[0..] == busy;
    OutsideHoursFill0(busy);
    OutsideHoursPass1(busy);
    PassAt(busy, 0, 480, 30, 30, Scan(Run(480, 30, 30, 0), 480), Scan(Run(510, 30, 30, 18), 1140));
    assert Run(480, 30, 30, 0) + Run(510, 30, 30, 18) == Run(510, 30, 30, 18);
  }

  lemma OutsideHoursScan(busy: seq<Interval>)
    requires busy == [Interval(420, 510), Interval(1050, 1140)]
    ensures GenerateSlots(busy, 480, 1080, 30, 0) == Run(510, 30, 30, 18)
  {
    OutsideHoursPass0(busy);
    FillIsRun(1140, 1080, 30, 0, 0);
    Generated(busy, 480, 1080, 30, 0, Scan(Run(510, 30, 30, 18), 1140), Scan(Run(1140, 30, 30, 0), 1140));
    assert Run(510, 30, 30, 18) + Run(1140, 30, 30, 0) == Run(510, 30, 30, 18);
  }

  /** Busy 07:00-08:30 and 17:30-19:00 only clip the window 08:00-18:00. */
  lemma OutsideHours(busy: seq<Interval>)
    requires busy == [Interval(420, 510), Interval(1050, 1140)]
    ensures FindSlots(busy, 480, 1080, 30, 0) == Run(510, 30, 30, 18)
  {
    MergeIdempotent(busy);
    OutsideHoursScan(MergeIntervals(busy));
  }

  // ---------------------------------------------------------------------------
  // Break time creates gaps between slots.

  lemma BreakTimeGapsFill0(busy: seq<Interval>)
    requires busy == [Interval(600, 630)]
    ensures Fill(480, busy[0].start, 30, 45) == Scan(Run(480, 30, 45, 3), 615)
  {
    FillIsRun(480, busy[0].start, 30, 15, 3);
  }

  lemma BreakTimeGapsPass0(busy: seq<Interval>)
    requires busy == [Interval(600, 630)]
    ensures BusyPass(busy, 480, 30, 45) == Scan(Run(480, 30, 45, 3), 630)
  {
    assert busy[0..] == busy;
    BreakTimeGapsFill0(busy);
    assert busy[1..] == [];
    PassAt(busy, 0, 480, 30, 45, Scan(Run(480, 30, 45, 3), 615), Scan([], 630));
    assert Run(480, 30, 45, 3) + [] == Run(480, 30, 45, 3);
  }

  lemma BreakTimeGapsScan(busy: seq<Interval>)
    requires busy == [Interval(600, 630)]
    ensures GenerateSlots(busy, 480, 720, 30, 15) == Run(480, 30, 45, 3) + Run(630, 30, 45, 2)
  {
    BreakTimeGapsPass0(busy);
    FillIsRun(630, 720, 30, 15, 2);
    Generated(busy, 480, 720, 30, 15, Scan(Run(480, 30, 45, 3), 630), Scan(Run(630, 30, 45, 2), 720));
  }

  /** 30-minute slots with 15-minute breaks around a busy half hour at 10:00. */
  lemma BreakTimeGaps(busy: seq<Interval>)
    requires busy == [Interval(600, 630)]
    ensures FindSlots(busy, 480, 720, 30, 15) == Run(480, 30, 45, 3) + Run(630, 30, 45, 2)
  {
    MergeIdempotent(busy);
    BreakTimeGapsScan(MergeIntervals(busy));
  }

  // ---------------------------------------------------------------------------
  // Small window with large slots.

  lemma SmallWindowLargeSlotsScan(busy: seq<Interval>)
    requires busy == []
    ensures GenerateSlots(busy, 600, 690, 60, 0) == Run(600, 60, 60, 1)
  {
    FillIsRun(600, 690, 60, 0, 1);
    Generated(busy, 600, 690, 60, 0, Scan([], 600), Scan(Run(600, 60, 60, 1), 660));
    assert [] + Run(600, 60, 60, 1) == Run(600, 60, 60, 1);
  }

  /** One 60-minute slot fits into the 90-minute window 10:00-11:30. */
  lemma SmallWindowLargeSlots(busy: seq<Interval>)
    requires busy == []
    ensures FindSlots(busy, 600, 690, 60, 0) == Run(600, 60, 60, 1)
  {
    SmallWindowLargeSlotsScan(MergeIntervals(busy));
  }

  // ---------------------------------------------------------------------------
  // Unordered busy ranges.

  lemma UnorderedBusyCoverage(busy: seq<Interval>, merged: seq<Interval>)
    requires busy == [Interval(840, 900), Interval(540, 600), Interval(690, 750)]
    requires merged == [Interval(540, 600), Interval(690, 750), Interval(840, 900)]
    ensures forall t: real :: Covers(busy, t) <==> Covers(merged, t)
  {
    forall t: real ensures Covers(busy, t) <==> Covers(merged, t) {
      if Covers(busy, t) {
        var i :| 0 <= i < |busy| && Contains(busy[i], t);
        if i == 0 {
          assert Contains(merged[2], t);
        } else if i == 1 {
          assert Contains(merged[0], t);
        } else if i == 2 {
          assert Contains(merged[1], t);
        }
      }
      if Covers(merged, t) {
        var j :| 0 <= j < |merged| && Contains(merged[j], t);
        if j == 0 {
          assert Contains(busy[1], t);
        } else if j == 1 {
          assert Contains(busy[2], t);
        } else if j == 2 {
          assert Contains(busy[0], t);
        }
      }
    }
  }

  lemma UnorderedBusyMerged(busy: seq<Interval>)
    requires busy == [Interval(840, 900), Interval(540, 600), Interval(690, 750)]
    ensures MergeIntervals(busy) == [Interval(540, 600), Interval(690, 750), Interval(840, 900)]
  {
    UnorderedBusyCoverage(busy, [Interval(540, 600), Interval(690, 750), Interval(840, 900)]);
    MergedTo(busy, [Interval(540, 600), Interval(690, 750), Interval(840, 900)]);
  }

  lemma UnorderedBusyFill0(busy: seq<Interval>)
    requires busy == [Interval(540, 600), Interval(690, 750), Interval(840, 900)]
    ensures Fill(480, busy[0].start, 30, 30) == Scan(Run(480, 30, 30, 2), 540)
  {
    FillIsRun(480, busy[0].start, 30, 0, 2);
  }

  lemma UnorderedBusyFill1(busy: seq<Interval>)
    requires busy == [Interval(540, 600), Interval(690, 750), Interval(840, 900)]
    ensures Fill(600, busy[1].start, 30, 30) == Scan(Run(600, 30, 30, 3), 690)
  {
    FillIsRun(600, busy[1].start, 30, 0, 3);
  }

  lemma UnorderedBusyFill2(busy: seq<Interval>)
    requires busy == [Interval(540, 600), Interval(690, 750), Interval(840, 900)]
    ensures Fill(750, busy[2].start, 30, 30) == Scan(Run(750, 30, 30, 3), 840)
  {
    FillIsRun(750, busy[2].start, 30, 0, 3);
  }

  lemma UnorderedBusyPass2(busy: seq<Interval>)
    requires busy == [Interval(540, 600), Interval(690, 750), Interval(840, 900)]
    ensures BusyPass(busy[2..], 750, 30, 30) == Scan(Run(750, 30, 30, 3), 900)
  {
    UnorderedBusyFill2(busy);
    assert busy[3..] == [];
    PassAt(busy, 2, 750, 30, 30, Scan(Run(750, 30, 30, 3), 840), Scan([], 900));
    assert Run(750, 30, 30, 3) + [] == Run(750, 30, 30, 3);
  }

  lemma UnorderedBusyPass1(busy: seq<Interval>)
    requires busy == [Interval(540, 600), Interval(690, 750), Interval(840, 900)]
    ensures BusyPass(busy[1..], 600, 30, 30) == Scan(Run(600, 30, 30, 3) + Run(750, 30, 30, 3), 900)
  {
    UnorderedBusyFill1(busy);
    UnorderedBusyPass2(busy);
    PassAt(busy, 1, 600, 30, 30, Scan(Run(600, 30, 30, 3), 690), Scan(Run(750, 30, 30, 3), 900));
  }

  lemma UnorderedBusyPass0(busy: seq<Interval>)
    requires busy == [Interval(540, 600), Interval(690, 750), Interval(840, 900)]
    ensures BusyPass(busy, 480, 30, 30) == Scan(Run(480, 30, 30, 2) + Run(600, 30, 30, 3) + Run(750, 30, 30, 3), 900)
  {
    assert busy[0..] == busy;
    UnorderedBusyFill0(busy);
    UnorderedBusyPass1(busy);
    PassAt(busy, 0, 480, 30, 30, Scan(Run(480, 30, 30, 2), 540), Scan(Run(600, 30, 30, 3) + Run(750, 30, 30, 3), 900));
    assert Run(480, 30, 30, 2) + (Run(600, 30, 30, 3) + Run(750, 30, 30, 3)) == Run(480, 30, 30, 2) + Run(600, 30, 30, 3) + Run(750, 30, 30, 3);
  }

  lemma UnorderedBusyScan(busy: seq<Interval>)
    requires busy == [Interval(540, 600), Interval(690, 750), Interval(840, 900)]
    ensures GenerateSlots(busy, 480, 960, 30, 0) == Run(480, 30, 30, 2) + Run(600, 30, 30, 3) + Run(750, 30, 30, 3) + Run(900, 30, 30, 2)
  {
    UnorderedBusyPass0(busy);
    FillIsRun(900, 960, 30, 0, 2);
    Generated(busy, 480, 960, 30, 0, Scan(Run(480, 30, 30, 2) + Run(600, 30, 30, 3) + Run(750, 30, 30, 3), 900), Scan(Run(900, 30, 30, 2), 960));
  }

  /** Busy ranges given out of order are handled as if sorted. */
  lemma UnorderedBusy(busy: seq<Interval>)
    requires busy == [Interval(840, 900), Interval(540, 600), Interval(690, 750)]
    ensures FindSlots(busy, 480, 960, 30, 0) == Run(480, 30, 30, 2) + Run(600, 30, 30, 3) + Run(750, 30, 30, 3) + Run(900, 30, 30, 2)
  {
    UnorderedBusyMerged(busy);
    UnorderedBusyScan(MergeIntervals(busy));
  }

  // ---------------------------------------------------------------------------
  // A slot that exactly fits at the end of the day.

  lemma ExactFitAtEndScan(busy: seq<Interval>)
    requires busy == []
    ensures GenerateSlots(busy, 1050, 1080, 30, 0) == Run(1050, 30, 30, 1)
  {
    FillIsRun(1050, 1080, 30, 0, 1);
    Generated(busy, 1050, 1080, 30, 0, Scan([], 1050), Scan(Run(1050, 30, 30, 1), 1080));
    assert [] + Run(1050, 30, 30, 1) == Run(1050, 30, 30, 1);
  }

  /** A slot ending exactly at the window end is kept. */
  lemma ExactFitAtEnd(busy: seq<Interval>)
    requires busy == []
    ensures FindSlots(busy, 1050, 1080, 30, 0) == Run(1050, 30, 30, 1)
  {
    ExactFitAtEndScan(MergeIntervals(busy));
  }

  // ---------------------------------------------------------------------------
  // Complex overlapping scenario.

  lemma ComplexOverlapsCoverage(busy: seq<Interval>, merged: seq<Interval>)
    requires busy == [Interval(660, 720), Interval(780, 840), Interval(570, 690), Interval(810, 930), Interval(540, 600)]
    requires merged == [Interval(540, 720), Interval(780, 930)]
    ensures forall t: real :: Covers(busy, t) <==> Covers(merged, t)
  {
    forall t: real ensures Covers(busy, t) <==> Covers(merged, t) {
      if Covers(busy, t) {
        var i :| 0 <= i < |busy| && Contains(busy[i], t);
        if i == 0 {
          assert Contains(merged[0], t);
        } else if i == 1 {
          assert Contains(merged[1], t);
        } else if i == 2 {
          assert Contains(merged[0], t);
        } else if i == 3 {
          assert Contains(merged[1], t);
        } else if i == 4 {
          assert Contains(merged[0], t);
        }
      }
      if Covers(merged, t) {
        var j :| 0 <= j < |merged| && Contains(merged[j], t);
        if j == 0 {
          if t <= 600.0 {
            assert Contains(busy[4], t);
          } else if t <= 690.0 {
            assert Contains(busy[2], t);
          } else {
            assert Contains(busy[0], t);
          }
        } else if j == 1 {
          if t <= 840.0 {
            assert Contains(busy[1], t);
          } else {
            assert Contains(busy[3], t);
          }
        }
      }
    }
  }

  lemma ComplexOverlapsMerged(busy: seq<Interval>)
    requires busy == [Interval(660, 720), Interval(780, 840), Interval(570, 690), Interval(810, 930), Interval(540, 600)]
    ensures MergeIntervals(busy) == [Interval(540, 720), Interval(780, 930)]
  {
    ComplexOverlapsCoverage(busy, [Interval(540, 720), Interval(780, 930)]);
    MergedTo(busy, [Interval(540, 720), Interval(780, 930)]);
  }

  lemma ComplexOverlapsFill0(busy: seq<Interval>)
    requires busy == [Interval(540, 720), Interval(780, 930)]
    ensures Fill(480, busy[0].start, 30, 30) == Scan(Run(480, 30, 30, 2), 540)
  {
    FillIsRun(480, busy[0].start, 30, 0, 2);
  }

  lemma ComplexOverlapsFill1(busy: seq<Interval>)
    requires busy == [Interval(540, 720), Interval(780, 930)]
    ensures Fill(720, busy[1].start, 30, 30) == Scan(Run(720, 30, 30, 2), 780)
  {
    FillIsRun(720, busy[1].start, 30, 0, 2);
  }

  lemma ComplexOverlapsPass1(busy: seq<Interval>)
    requires busy == [Interval(540, 720), Interval(780, 930)]
    ensures BusyPass(busy[1..], 720, 30, 30) == Scan(Run(720, 30, 30, 2), 930)
  {
    ComplexOverlapsFill1(busy);
    assert busy[2..] == [];
    PassAt(busy, 1, 720, 30, 30, Scan(Run(720, 30, 30, 2), 780), Scan([], 930));
    assert Run(720, 30, 30, 2) + [] == Run(720, 30, 30, 2);
  }

  lemma ComplexOverlapsPass0(busy: seq<Interval>)
    requires busy == [Interval(540, 720), Interval(780, 930)]
    ensures BusyPass(busy, 480, 30, 30) == Scan(Run(480, 30, 30, 2) + Run(720, 30, 30, 2), 930)
  {
    assert busy[0..] == busy;
    ComplexOverlapsFill0(busy);
    ComplexOverlapsPass1(busy);
    PassAt(busy, 0, 480, 30, 30, Scan(Run(480, 30, 30, 2), 540), Scan(Run(720, 30, 30, 2), 930));
  }

  lemma ComplexOverlapsScan(busy: seq<Interval>)
    requires busy == [Interval(540, 720), Interval(780, 930)]
    ensures GenerateSlots(busy, 480, 960, 30, 0) == Run(480, 30, 30, 2) + Run(720, 30, 30, 2) + Run(930, 30, 30, 1)
  {
    ComplexOverlapsPass0(busy);
    FillIsRun(930, 960, 30, 0, 1);
    Generated(busy, 480, 960, 30, 0, Scan(Run(480, 30, 30, 2) + Run(720, 30, 30, 2), 930), Scan(Run(930, 30, 30, 1), 960));
  }

  /** Five unordered, overlapping busy ranges merge to 09:00-12:00 and 13:00-15:30. */
  lemma ComplexOverlaps(busy: seq<Interval>)
    requires busy == [Interval(660, 720), Interval(780, 840), Interval(570, 690), Interval(810, 930), Interval(540, 600)]
    ensures FindSlots(busy, 480, 960, 30, 0) == Run(480, 30, 30, 2) + Run(720, 30, 30, 2) + Run(930, 30, 30, 1)
  {
    ComplexOverlapsMerged(busy);
    ComplexOverlapsScan(MergeIntervals(busy));
  }

  // ---------------------------------------------------------------------------
  // Fully booked: one busy range over the whole default window.

  lemma FullyBooked(busy: seq<Interval>)
    requires busy == [Interval(480, 1080)]
    ensures FindSlots(busy, 480, 1080, 30, 0) == []
  {
    FindSlotsFullyBooked(busy, 480, 1080, 30, 0, 0);
  }

  // ---------------------------------------------------------------------------
  // End to end on strings

  /** A canonical "HH:MM" literal denotes `m` minutes and is what `m` renders to. */
  lemma Clock(s: string, m: nat)
    requires |s| == 5 && s[2] == ':'
    requires IsDigit(s[0]) && IsDigit(s[1]) && IsDigit(s[3]) && IsDigit(s[4]) && s[3] <= '5'
    requires m == (DigitValue(s[0]) * 10 + DigitValue(s[1])) * 60 + DigitValue(s[3]) * 10 + DigitValue(s[4])
    ensures IsTimeString(s) && TimeToMinutes(s) == m && MinutesToTime(m) == s
  {
    CanonicalRoundTrip(s);
  }

  /** When the minute-level answer is one slot, slots() returns that slot rendered. */
  lemma RenderedOne(opts: SlotsOptions, iv: Interval, t: TimeSlot)
    requires ValidOptions(opts)
    requires FindSlots(ToIntervals(opts.busy), TimeToMinutes(StartTimeOf(opts)), TimeToMinutes(EndTimeOf(opts)),
                       SlotSizeOf(opts), BreakTimeOf(opts)) == [iv]
    requires MinutesToTime(iv.start) == t.start && MinutesToTime(iv.end) == t.end
    ensures Slots(opts) == [t]
  {
    SlotsRendered(opts);
    assert ToTimeSlots([iv])[0] == ToTimeSlot(iv);
  }

  lemma SmallWindowOptions(opts: SlotsOptions)
    requires opts == SlotsOptions([], Some(60), None, Some("10:00"), Some("11:30"))
    ensures ValidOptions(opts)
    ensures TimeToMinutes(StartTimeOf(opts)) == 600 && TimeToMinutes(EndTimeOf(opts)) == 690
    ensures SlotSizeOf(opts) == 60 && BreakTimeOf(opts) == 0
  {
    Clock(StartTimeOf(opts), 600);
    Clock(EndTimeOf(opts), 690);
  }

  lemma SmallWindowMinutes(opts: SlotsOptions)
    requires opts == SlotsOptions([], Some(60), None, Some("10:00"), Some("11:30"))
    ensures ValidOptions(opts)
    ensures FindSlots(ToIntervals(opts.busy), TimeToMinutes(StartTimeOf(opts)), TimeToMinutes(EndTimeOf(opts)),
                      SlotSizeOf(opts), BreakTimeOf(opts)) == [Interval(600, 660)]
  {
    SmallWindowOptions(opts);
    SmallWindowLargeSlots(ToIntervals(opts.busy));
  }

  /** slots({busy: [], slotSize: 60, startTime: "10:00", endTime: "11:30"}) is the one range 10:00-11:00. */
  lemma SmallWindowLargeSlotsStrings(opts: SlotsOptions)
    requires opts == SlotsOptions([], Some(60), None, Some("10:00"), Some("11:30"))
    ensures ValidOptions(opts) && Slots(opts) == [TimeSlot("10:00", "11:00")]
  {
    SmallWindowMinutes(opts);
    Clock(StartTimeOf(opts), 600);
    Clock("11:00", 660);
    RenderedOne(opts, Interval(600, 660), TimeSlot("10:00", "11:00"));
  }

  lemma ExactFitOptions(opts: SlotsOptions)
    requires opts == SlotsOptions([], Some(30), None, Some("17:30"), Some("18:00"))
    ensures ValidOptions(opts)
    ensures TimeToMinutes(StartTimeOf(opts)) == 1050 && TimeToMinutes(EndTimeOf(opts)) == 1080
    ensures SlotSizeOf(opts) == 30 && BreakTimeOf(opts) == 0
  {
    Clock(StartTimeOf(opts), 1050);
    Clock(EndTimeOf(opts), 1080);
  }

  lemma ExactFitMinutes(opts: SlotsOptions)
    requires opts == SlotsOptions([], Some(30), None, Some("17:30"), Some("18:00"))
    ensures ValidOptions(opts)
    ensures FindSlots(ToIntervals(opts.busy), TimeToMinutes(StartTimeOf(opts)), TimeToMinutes(EndTimeOf(opts)),
                      SlotSizeOf(opts), BreakTimeOf(opts)) == [Interval(1050, 1080)]
  {
    ExactFitOptions(opts);
    ExactFitAtEnd(ToIntervals(opts.busy));
  }

  /** slots({busy: [], slotSize: 30, startTime: "17:30", endTime: "18:00"}) is the one range 17:30-18:00. */
  lemma ExactFitAtEndStrings(opts: SlotsOptions)
    requires opts == SlotsOptions([], Some(30), None, Some("17:30"), Some("18:00"))
    ensures ValidOptions(opts) && Slots(opts) == [TimeSlot("17:30", "18:00")]
  {
    ExactFitMinutes(opts);
    ExactFitOptions(opts);
    Clock(StartTimeOf(opts), 1050);
    Clock(EndTimeOf(opts), 1080);
    RenderedOne(opts, Interval(1050, 1080), TimeSlot("17:30", "18:00"));
  }

  lemma FullyBookedOptions(opts: SlotsOptions)
    requires opts == SlotsOptions([TimeSlot("08:00", "18:00")], None, None, None, None)
    ensures ValidOptions(opts)
    ensures TimeToMinutes(StartTimeOf(opts)) == 480 && TimeToMinutes(EndTimeOf(opts)) == 1080
    ensures SlotSizeOf(opts) == 30 && BreakTimeOf(opts) == 0
    ensures ToIntervals(opts.busy) == [Interval(480, 1080)]
  {
    Defaults(opts.busy);
    Clock(opts.busy[0].start, 480);
    Clock(opts.busy[0].end, 1080);
  }

  /** slots({busy: [{start: "08:00", end: "18:00"}]}) with the default window is empty. */
  lemma FullyBookedStrings(opts: SlotsOptions)
    requires opts == SlotsOptions([TimeSlot("08:00", "18:00")], None, None, None, None)
    ensures ValidOptions(opts) && Slots(opts) == []
  {
    FullyBookedOptions(opts);
    SlotsRendered(opts);
    FullyBooked(ToIntervals(opts.busy));
  }
}

=== FILE: slots.dfy ===
/**
  The public entry point: an options record with optional fields and
  defaults, busy ranges written as "HH:MM" strings, and the available ranges
  returned in the same form.

  Between the two phases the busy list travels as strings: the merge renders
  its minutes with `MinutesToTime` and the generator parses them back with
  `TimeToMinutes`.  `Time.RoundTrip` is what makes that detour harmless, and
  `Slots` is stated against the purely minute-level pipeline `FindSlots`.
 */
module AvailableSlots {
  import opened Time
  import opened Intervals
  import opened Merge
  import opened Generate

  /** A time range as the caller writes it, e.g. TimeSlot("09:00", "10:30"). */
  datatype TimeSlot = TimeSlot(start: string, end: string)

  /** An optional field of the options record; `None` is an omitted field. */
  datatype Option<T> = None | Some(value: T)

  datatype SlotsOptions = SlotsOptions(
    busy: seq<TimeSlot>,
    slotSize: Option<int>,
    breakTime: Option<int>,
    startTime: Option<string>,
    endTime: Option<string>)

  const DefaultSlotSize: int := 30
  const DefaultBreakTime: int := 0
  const DefaultStartTime: string := "08:00"
  const DefaultEndTime: string := "18:00"

  function GetOr<T>(o: Option<T>, default: T): T {
    match o
    case Some(v) => v
    case None => default
  }

  function SlotSizeOf(opts: SlotsOptions): int { GetOr(opts.slotSize, DefaultSlotSize) }
  function BreakTimeOf(opts: SlotsOptions): int { GetOr(opts.breakTime, DefaultBreakTime) }
  function StartTimeOf(opts: SlotsOptions): string { GetOr(opts.startTime, DefaultStartTime) }
  function EndTimeOf(opts: SlotsOptions): string { GetOr(opts.endTime, DefaultEndTime) }

  predicate IsTimeSlot(t: TimeSlot) {
    IsTimeString(t.start) && IsTimeString(t.end)
  }

  predicate AllTimeSlots(s: seq<TimeSlot>) {
    forall i :: 0 <= i < |s| ==> IsTimeSlot(s[i])
  }

  /**
    Options the model accepts: after defaults, a positive slot size, a
    non-negative break, and well-formed time strings everywhere.
   */
  predicate ValidOptions(opts: SlotsOptions) {
    && SlotSizeOf(opts) > 0
    && BreakTimeOf(opts) >= 0
    && IsTimeString(StartTimeOf(opts))
    && IsTimeString(EndTimeOf(opts))
    && AllTimeSlots(opts.busy)
  }

  // ---------------------------------------------------------------------------
  // Between strings and minutes

  function ToInterval(t: TimeSlot): Interval
    requires IsTimeSlot(t)
  {
    Interval(TimeToMinutes(t.start), TimeToMinutes(t.end))
  }

  function ToIntervals(s: seq<TimeSlot>): (r: seq<Interval>)
    requires AllTimeSlots(s)
    ensures |r| == |s|
    ensures forall i :: 0 <= i < |s| ==> r[i] == ToInterval(s[i])
  {
    seq(|s|, i requires 0 <= i < |s| => ToInterval(s[i]))
  }

  /** Renders an interval; parsing the rendering gives the interval back. */
  function ToTimeSlot(iv: Interval): (t: TimeSlot)
    ensures IsTimeSlot(t)
    ensures ToInterval(t) == iv
  {
    RoundTrip(iv.start);
    RoundTrip(iv.end);
    TimeSlot(MinutesToTime(iv.start), MinutesToTime(iv.end))
  }

  function ToTimeSlots(s: seq<Interval>): (r: seq<TimeSlot>)
    ensures AllTimeSlots(r)
    ensures ToIntervals(r) == s
  {
    seq(|s|, i requires 0 <= i < |s| => ToTimeSlot(s[i]))
  }

  /** The whole computation in minutes: merge the busy list, then generate. */
  function FindSlots(busy: seq<Interval>, startTime: nat, endTime: nat, slotSize: nat, breakTime: nat): (r: seq<Interval>)
    requires slotSize > 0
    ensures forall i :: 0 <= i < |r| ==> r[i].end == r[i].start + slotSize && startTime <= r[i].start
  {
    GenerateSlots(MergeIntervals(busy), startTime, endTime, slotSize, breakTime)
  }

  // ---------------------------------------------------------------------------
  // The three operations on strings

  /** Busy ranges merged and rendered; they parse back to the merge of the parsed input. */
  function MergeOverlappingSlots(slots: seq<TimeSlot>): (r: seq<TimeSlot>)
    requires AllTimeSlots(slots)
    ensures AllTimeSlots(r)
    ensures ToIntervals(r) == MergeIntervals(ToIntervals(slots))
  {
    if |slots| == 0 then []
    else ToTimeSlots(MergeSorted(SortByStart(ToIntervals(slots))))
  }

  /** Slots generated around already merged busy ranges given as strings. */
  function GenerateAvailableSlots(mergedBusy: seq<TimeSlot>, startTime: nat, endTime: nat, slotSize: nat, breakTime: nat)
    : (r: seq<TimeSlot>)
    requires AllTimeSlots(mergedBusy)
    requires slotSize > 0
    ensures AllTimeSlots(r)
    ensures ToIntervals(r) == GenerateSlots(ToIntervals(mergedBusy), startTime, endTime, slotSize, breakTime)
  {
    ToTimeSlots(GenerateSlots(ToIntervals(mergedBusy), startTime, endTime, slotSize, breakTime))
  }

  /**
    The entry point.  Whether the busy list is empty (the shortcut) or not,
    and despite the detour through strings between merge and generation, the
    result parses to the minute-level pipeline applied to the parsed options.
   */
  function Slots(opts: SlotsOptions): (r: seq<TimeSlot>)
    requires ValidOptions(opts)
    ensures AllTimeSlots(r)
    ensures ToIntervals(r) == FindSlots(ToIntervals(opts.busy), TimeToMinutes(StartTimeOf(opts)),
                                        TimeToMinutes(EndTimeOf(opts)), SlotSizeOf(opts), BreakTimeOf(opts))
  {
    var startMinutes := TimeToMinutes(StartTimeOf(opts));
    var endMinutes := TimeToMinutes(EndTimeOf(opts));
    if |opts.busy| == 0 then
      GenerateAvailableSlots([], startMinutes, endMinutes, SlotSizeOf(opts), BreakTimeOf(opts))
    else
      var mergedBusy := MergeOverlappingSlots(opts.busy);
      GenerateAvailableSlots(mergedBusy, startMinutes, endMinutes, SlotSizeOf(opts), BreakTimeOf(opts))
  }

  // ---------------------------------------------------------------------------
  // Helper lemmas

  /** Parsing commutes with reordering. */
  lemma {:induction false} ToIntervalsPermutation(a: seq<TimeSlot>, b: seq<TimeSlot>)
    requires AllTimeSlots(a)
    requires multiset(a) == multiset(b)
    ensures AllTimeSlots(b)
    ensures multiset(ToIntervals(a)) == multiset(ToIntervals(b))
    decreases |a|
  {
    PermutationTimeSlots(a, b);
    if a != [] {
      assert a[0] in multiset(b);
      var j :| 0 <= j < |b| && b[j] == a[0];
      DropMatching(a, b, j);
      DropWellFormed(a, 0);
      ToIntervalsPermutation(a[..0] + a[1..], b[..j] + b[j + 1..]);
      PermutationStep(a, b, j);
    } else {
      assert |b| == |multiset(b)| == 0;
    }
  }

  /** Putting the same element back into both sides of a parsed permutation. */
  lemma PermutationStep(a: seq<TimeSlot>, b: seq<TimeSlot>, j: nat)
    requires AllTimeSlots(a) && AllTimeSlots(b)
    requires a != [] && j < |b| && b[j] == a[0]
    requires AllTimeSlots(a[..0] + a[1..]) && AllTimeSlots(b[..j] + b[j + 1..])
    requires multiset(ToIntervals(a[..0] + a[1..])) == multiset(ToIntervals(b[..j] + b[j + 1..]))
    ensures multiset(ToIntervals(a)) == multiset(ToIntervals(b))
  {
    ToIntervalsRemove(a, 0);
    ToIntervalsRemove(b, j);
  }

  lemma PermutationTimeSlots(a: seq<TimeSlot>, b: seq<TimeSlot>)
    requires AllTimeSlots(a)
    requires multiset(a) == multiset(b)
    ensures AllTimeSlots(b)
  {
    forall j | 0 <= j < |b| ensures IsTimeSlot(b[j]) {
      assert b[j] in multiset(a);
    }
  }

  /** Parsing a list with one element taken out. */
  lemma ToIntervalsRemove(b: seq<TimeSlot>, j: nat)
    requires AllTimeSlots(b) && j < |b|
    ensures AllTimeSlots(b[..j] + b[j + 1..])
    ensures multiset(ToIntervals(b)) == multiset(ToIntervals(b[..j] + b[j + 1..])) + multiset{ToInterval(b[j])}
  {
    DropWellFormed(b, j);
    DropParsed(b, j);
    RemoveOne(ToIntervals(b), j);
  }

  lemma DropWellFormed(b: seq<TimeSlot>, j: nat)
    requires AllTimeSlots(b) && j < |b|
    ensures AllTimeSlots(b[..j] + b[j + 1..])
  {
    var rest := b[..j] + b[j + 1..];
    forall i | 0 <= i < |rest| ensures IsTimeSlot(rest[i]) {
      if i < j { assert rest[i] == b[i]; } else { assert rest[i] == b[i + 1]; }
    }
  }

  lemma DropParsed(b: seq<TimeSlot>, j: nat)
    requires AllTimeSlots(b) && j < |b|
    requires AllTimeSlots(b[..j] + b[j + 1..])
    ensures ToIntervals(b[..j] + b[j + 1..]) == ToIntervals(b)[..j] + ToIntervals(b)[j + 1..]
  {
    var rest := b[..j] + b[j + 1..];
    var s := ToIntervals(b);
    forall i | 0 <= i < |rest| ensures ToIntervals(rest)[i] == (s[..j] + s[j + 1..])[i] {
      if i < j { assert rest[i] == b[i]; } else { assert rest[i] == b[i + 1]; }
    }
  }

  /** Taking the same element out of two permutations of each other leaves permutations. */
  lemma DropMatching<T>(a: seq<T>, b: seq<T>, j: nat)
    requires multiset(a) == multiset(b)
    requires a != [] && j < |b| && b[j] == a[0]
    ensures multiset(a[..0] + a[1..]) == multiset(b[..j] + b[j + 1..])
  {
    RemoveOne(a, 0);
    RemoveOne(b, j);
    var ma, mb := multiset(a[..0] + a[1..]), multiset(b[..j] + b[j + 1..]);
    assert (ma + multiset{a[0]}) - multiset{a[0]} == ma;
    assert (mb + multiset{a[0]}) - multiset{a[0]} == mb;
  }

  lemma RemoveOne<T>(s: seq<T>, j: nat)
    requires j < |s|
    ensures multiset(s) == multiset(s[..j] + s[j + 1..]) + multiset{s[j]}
  {
    assert s == s[..j] + [s[j]] + s[j + 1..];
  }

  /** `Slots` renders exactly the minute-level pipeline. */
  lemma SlotsRendered(opts: SlotsOptions)
    requires ValidOptions(opts)
    ensures Slots(opts) == ToTimeSlots(FindSlots(ToIntervals(opts.busy), TimeToMinutes(StartTimeOf(opts)),
                                                 TimeToMinutes(EndTimeOf(opts)), SlotSizeOf(opts), BreakTimeOf(opts)))
  {
  }

  // ---------------------------------------------------------------------------
  // The minute-level pipeline against the caller's busy list

  /** No instant strictly inside any slot is covered by the busy list. */
  ghost predicate FreeInterior(slots: seq<Interval>, busy: seq<Interval>) {
    forall i, t: real :: 0 <= i < |slots| && slots[i].start as real < t < slots[i].end as real ==> !Covers(busy, t)
  }

  /** An instant inside both `slot` and `b` whenever the two overlap by more than an endpoint. */
  function Overlap(slot: Interval, b: Interval): real {
    ((if slot.start <= b.start then b.start else slot.start) as real
     + (if slot.end <= b.end then slot.end else b.end) as real) / 2.0
  }

  lemma OverlapInside(slot: Interval, b: Interval)
    ensures slot.start < slot.end && WellFormed(b) && !Apart(slot, b) ==>
              slot.start as real < Overlap(slot, b) < slot.end as real && Contains(b, Overlap(slot, b))
  {
  }

  lemma MergedSorted(busy: seq<Interval>)
    requires AllWellFormed(busy)
    ensures Separated(MergeIntervals(busy)) && SortedByStart(MergeIntervals(busy))
  {
    MergeSeparated(busy);
    var m := MergeIntervals(busy);
    forall i, j | 0 <= i < j < |m| ensures m[i].start <= m[j].start {
      assert WellFormed(m[i]);
    }
  }

  /**
    Every slot avoids every busy interval the caller gave, not only the merged
    ones: no busy instant lies strictly inside a slot, and each slot ends by
    the time a busy interval starts or starts once it has ended.
   */
  lemma FindSlotsAvoidBusy(busy: seq<Interval>, startTime: nat, endTime: nat, slotSize: nat, breakTime: nat)
    requires slotSize > 0
    requires AllWellFormed(busy)
    ensures FreeInterior(FindSlots(busy, startTime, endTime, slotSize, breakTime), busy)
    ensures AllApart(FindSlots(busy, startTime, endTime, slotSize, breakTime), busy)
  {
    var m := MergeIntervals(busy);
    var r := FindSlots(busy, startTime, endTime, slotSize, breakTime);
    MergedSorted(busy);
    GenerateAvoidsBusy(m, startTime, endTime, slotSize, breakTime);
    forall i, t: real | 0 <= i < |r| && r[i].start as real < t < r[i].end as real ensures !Covers(busy, t) {
      forall k | 0 <= k < |m| ensures !Contains(m[k], t) {
        assert Apart(r[i], m[k]);
      }
      MergeCovers(busy, t);
    }
    forall i, k | 0 <= i < |r| && 0 <= k < |busy| ensures Apart(r[i], busy[k]) {
      OverlapInside(r[i], busy[k]);
      assert Contains(busy[k], Overlap(r[i], busy[k])) ==> Covers(busy, Overlap(r[i], busy[k]));
    }
  }

  /**
    When no busy interval starts after the window closes, every slot lies
    inside the window.
   */
  lemma FindSlotsWithinWindow(busy: seq<Interval>, startTime: nat, endTime: nat, slotSize: nat, breakTime: nat)
    requires slotSize > 0
    requires forall k :: 0 <= k < |busy| ==> busy[k].start <= endTime
    ensures WithinWindow(FindSlots(busy, startTime, endTime, slotSize, breakTime), startTime, endTime)
  {
    MergedStartsBounded(busy, endTime);
    GenerateWithinWindow(MergeIntervals(busy), startTime, endTime, slotSize, breakTime);
  }

  lemma AnchoredThroughMerge(x: nat, prev: nat, m: seq<Interval>, busy: seq<Interval>)
    requires forall i :: 0 <= i < |m| ==> EndOf(m[i].end, busy)
    requires Anchored(x, prev, m)
    ensures Anchored(x, prev, busy)
  {
    if x != prev {
      var b :| b in m && x == b.end;
      var i :| 0 <= i < |m| && m[i] == b;
      assert EndOf(m[i].end, busy);
    }
  }

  /**
    Each slot starts at the window start, exactly one slot-plus-break after
    the previous slot's start, or exactly where one of the caller's busy
    intervals ends: no break is inserted after busy time.
   */
  lemma FindSlotsAnchored(busy: seq<Interval>, startTime: nat, endTime: nat, slotSize: nat, breakTime: nat)
    requires slotSize > 0
    ensures ChainAnchored(FindSlots(busy, startTime, endTime, slotSize, breakTime), startTime, slotSize + breakTime, busy)
  {
    var m := MergeIntervals(busy);
    var r := FindSlots(busy, startTime, endTime, slotSize, breakTime);
    var step := slotSize + breakTime;
    MergeEndpoints(busy);
    assert forall i :: 0 <= i < |m| ==> EndOf(m[i].end, busy);
    GenerateAnchored(m, startTime, endTime, slotSize, breakTime);
    if r != [] {
      AnchoredThroughMerge(r[0].start, startTime, m, busy);
    }
    forall i | 0 <= i < |r| - 1 ensures Anchored(r[i + 1].start, r[i].start + step, busy) {
      AnchoredThroughMerge(r[i + 1].start, r[i].start + step, m, busy);
    }
  }

  /** Merging never moves a start later, so a bound on the input starts bounds the merged ones. */
  lemma MergedStartsBounded(busy: seq<Interval>, endTime: nat)
    requires forall k :: 0 <= k < |busy| ==> busy[k].start <= endTime
    ensures forall k :: 0 <= k < |MergeIntervals(busy)| ==> MergeIntervals(busy)[k].start <= endTime
  {
    var m := MergeIntervals(busy);
    MergeEndpoints(busy);
    forall k | 0 <= k < |m| ensures m[k].start <= endTime {
      assert StartOf(m[k].start, busy);
      var y :| y in busy && y.start == m[k].start;
    }
  }

  /** A busy interval spanning the window lies inside one merged interval spanning it. */
  lemma MergedSpans(busy: seq<Interval>, startTime: nat, endTime: nat, k0: nat)
    requires AllWellFormed(busy)
    requires startTime <= endTime
    requires k0 < |busy| && busy[k0].start <= startTime && endTime <= busy[k0].end
    ensures exists k :: 0 <= k < |MergeIntervals(busy)| && MergeIntervals(busy)[k].start <= startTime
                        && endTime <= MergeIntervals(busy)[k].end
  {
    var m := MergeIntervals(busy);
    MergeSeparated(busy);
    var st := startTime as real;
    assert Contains(busy[k0], st);
    MergeCovers(busy, st);
    var k :| 0 <= k < |m| && Contains(m[k], st);
    var g := GapPoint(m, k, endTime as real);
    GapAfter(m, k, endTime as real);
    MergeCovers(busy, g);
    assert m[k].end as real < endTime as real ==> Contains(busy[k0], g);
    assert endTime <= m[k].end;
  }

  /** Slots that lie inside a window exist only if the window does not close before it opens. */
  lemma NonEmptyNeedsWindow(slots: seq<Interval>, startTime: nat, endTime: nat)
    requires WithinWindow(slots, startTime, endTime)
    requires forall i :: 0 <= i < |slots| ==> slots[i].start <= slots[i].end
    ensures slots != [] ==> startTime <= endTime
  {
    if slots != [] {
      assert startTime <= slots[0].start <= slots[0].end <= endTime;
    }
  }

  /**
    A busy interval spanning the whole window leaves nothing available,
    provided no busy interval starts after the window closes.  A window that
    closes before it opens has no room for a slot in any case.
   */
  lemma FindSlotsFullyBooked(busy: seq<Interval>, startTime: nat, endTime: nat, slotSize: nat, breakTime: nat, k0: nat)
    requires slotSize > 0
    requires AllWellFormed(busy)
    requires forall k :: 0 <= k < |busy| ==> busy[k].start <= endTime
    requires k0 < |busy| && busy[k0].start <= startTime && endTime <= busy[k0].end
    ensures FindSlots(busy, startTime, endTime, slotSize, breakTime) == []
  {
    if endTime < startTime {
      FindSlotsWithinWindow(busy, startTime, endTime, slotSize, breakTime);
      NonEmptyNeedsWindow(FindSlots(busy, startTime, endTime, slotSize, breakTime), startTime, endTime);
    } else {
      MergedSorted(busy);
      MergedStartsBounded(busy, endTime);
      MergedSpans(busy, startTime, endTime, k0);
      FullyBookedIsEmpty(MergeIntervals(busy), startTime, endTime, slotSize, breakTime);
    }
  }

  // ---------------------------------------------------------------------------
  // Properties of the entry point

  function StartMinutes(opts: SlotsOptions): nat
    requires ValidOptions(opts)
  {
    TimeToMinutes(StartTimeOf(opts))
  }

  function EndMinutes(opts: SlotsOptions): nat
    requires ValidOptions(opts)
  {
    TimeToMinutes(EndTimeOf(opts))
  }

  /** Omitted options mean 30-minute slots, no break, and the window 08:00 to 18:00. */
  lemma Defaults(busy: seq<TimeSlot>)
    ensures var opts := SlotsOptions(busy, None, None, None, None);
            SlotSizeOf(opts) == 30 && BreakTimeOf(opts) == 0
            && IsTimeString(StartTimeOf(opts)) && TimeToMinutes(StartTimeOf(opts)) == 8 * 60
            && IsTimeString(EndTimeOf(opts)) && TimeToMinutes(EndTimeOf(opts)) == 18 * 60
  {
    CanonicalRoundTrip(DefaultStartTime);
    CanonicalRoundTrip(DefaultEndTime);
  }

  /** The order in which the busy ranges are listed does not matter. */
  lemma SlotsOrderInvariant(opts: SlotsOptions, busy': seq<TimeSlot>)
    requires ValidOptions(opts)
    requires AllWellFormed(ToIntervals(opts.busy))
    requires multiset(busy') == multiset(opts.busy)
    ensures ValidOptions(opts.(busy := busy'))
    ensures Slots(opts.(busy := busy')) == Slots(opts)
  {
    ToIntervalsPermutation(opts.busy, busy');
    MergePermutationInvariant(ToIntervals(opts.busy), ToIntervals(busy'));
    SlotsRendered(opts);
    SlotsRendered(opts.(busy := busy'));
  }

  /** Available ranges never overlap the caller's busy ranges. */
  lemma SlotsAvoidBusy(opts: SlotsOptions)
    requires ValidOptions(opts)
    requires AllWellFormed(ToIntervals(opts.busy))
    ensures FreeInterior(ToIntervals(Slots(opts)), ToIntervals(opts.busy))
    ensures AllApart(ToIntervals(Slots(opts)), ToIntervals(opts.busy))
  {
    FindSlotsAvoidBusy(ToIntervals(opts.busy), StartMinutes(opts), EndMinutes(opts), SlotSizeOf(opts), BreakTimeOf(opts));
  }

  /**
    Every range lasts exactly the slot size, consecutive ranges are at least
    the break apart, and each range starts at the window start, exactly one
    slot-plus-break after the previous one, or at the end of a busy range.
   */
  lemma SlotsShape(opts: SlotsOptions)
    requires ValidOptions(opts)
    ensures forall i :: 0 <= i < |Slots(opts)| ==>
              ToInterval(Slots(opts)[i]).end == ToInterval(Slots(opts)[i]).start + SlotSizeOf(opts)
    ensures BreakBetween(ToIntervals(Slots(opts)), BreakTimeOf(opts))
    ensures ChainAnchored(ToIntervals(Slots(opts)), StartMinutes(opts), SlotSizeOf(opts) + BreakTimeOf(opts),
                          ToIntervals(opts.busy))
  {
    var busy := ToIntervals(opts.busy);
    GenerateOrdered(MergeIntervals(busy), StartMinutes(opts), EndMinutes(opts), SlotSizeOf(opts), BreakTimeOf(opts));
    FindSlotsAnchored(busy, StartMinutes(opts), EndMinutes(opts), SlotSizeOf(opts), BreakTimeOf(opts));
  }

  /** With no busy range starting after the window closes, every range lies inside the window. */
  lemma SlotsWithinWindow(opts: SlotsOptions)
    requires ValidOptions(opts)
    requires forall k :: 0 <= k < |opts.busy| ==> TimeToMinutes(opts.busy[k].start) <= EndMinutes(opts)
    ensures WithinWindow(ToIntervals(Slots(opts)), StartMinutes(opts), EndMinutes(opts))
  {
    FindSlotsWithinWindow(ToIntervals(opts.busy), StartMinutes(opts), EndMinutes(opts), SlotSizeOf(opts), BreakTimeOf(opts));
  }

  /** A busy range covering the whole window leaves no available range. */
  lemma SlotsFullyBooked(opts: SlotsOptions, k0: nat)
    requires ValidOptions(opts)
    requires AllWellFormed(ToIntervals(opts.busy))
    requires forall k :: 0 <= k < |opts.busy| ==> TimeToMinutes(opts.busy[k].start) <= EndMinutes(opts)
    requires k0 < |opts.busy|
    requires TimeToMinutes(opts.busy[k0].start) <= StartMinutes(opts)
    requires EndMinutes(opts) <= TimeToMinutes(opts.busy[k0].end)
    ensures Slots(opts) == []
  {
    FindSlotsFullyBooked(ToIntervals(opts.busy), StartMinutes(opts), EndMinutes(opts), SlotSizeOf(opts), BreakTimeOf(opts), k0);
  }

  /**
    With no busy ranges the k-th range starts k slot-plus-breaks after the
    window start, and there are exactly as many ranges as fit before the
    window closes.
   */
  lemma SlotsNoBusy(opts: SlotsOptions)
    requires ValidOptions(opts)
    requires opts.busy == []
    ensures EvenRun(ToIntervals(Slots(opts)), StartMinutes(opts), SlotSizeOf(opts), BreakTimeOf(opts))
    ensures forall k: nat :: k < |Slots(opts)| <==>
              NthStart(StartMinutes(opts), SlotSizeOf(opts), BreakTimeOf(opts), k) + SlotSizeOf(opts) <= EndMinutes(opts)
  {
    assert MergeIntervals(ToIntervals(opts.busy)) == [];
    GenerateNoBusy(StartMinutes(opts), EndMinutes(opts), SlotSizeOf(opts), BreakTimeOf(opts));
  }

  /** The merged ranges cover exactly the instants the input covers and are strictly separated. */
  lemma MergeOverlappingSlotsCanonical(slots: seq<TimeSlot>)
    requires AllTimeSlots(slots)
    requires AllWellFormed(ToIntervals(slots))
    ensures forall t: real :: Covers(ToIntervals(MergeOverlappingSlots(slots)), t) <==> Covers(ToIntervals(slots), t)
    ensures Separated(ToIntervals(MergeOverlappingSlots(slots)))
  {
    forall t: real ensures Covers(ToIntervals(MergeOverlappingSlots(slots)), t) <==> Covers(ToIntervals(slots), t) {
      MergeCovers(ToIntervals(slots), t);
    }
    MergeSeparated(ToIntervals(slots));
  }

  /** Merging already merged ranges gives back the same strings. */
  lemma MergeOverlappingSlotsIdempotent(slots: seq<TimeSlot>)
    requires AllTimeSlots(slots)
    requires AllWellFormed(ToIntervals(slots))
    ensures MergeOverlappingSlots(MergeOverlappingSlots(slots)) == MergeOverlappingSlots(slots)
  {
    var r := MergeOverlappingSlots(slots);
    if slots != [] {
      var m := MergeSorted(SortByStart(ToIntervals(slots)));
      assert r == ToTimeSlots(m);
      MergeSeparated(ToIntervals(slots));
      MergeIdempotent(m);
      if r != [] {
        assert MergeOverlappingSlots(r) == ToTimeSlots(MergeIntervals(ToIntervals(r)));
      }
    }
  }
}

=== FILE: time.dfy ===
/**
  The string layer of the slot finder: wall-clock times written "HH:MM" and
  their representation as minutes since midnight.

  Only well-formed time strings are modelled: a non-empty run of decimal
  digits, one colon, and another non-empty run of digits.  On such strings the
  source's split-on-colon followed by a numeric conversion of each piece is
  the decimal value of each run.
 */
module Time {

  predicate IsDigit(c: char) {
    '0' <= c <= '9'
  }

  /** A non-empty run of decimal digits. */
  predicate IsDigits(s: string) {
    |s| > 0 && forall i :: 0 <= i < |s| ==> IsDigit(s[i])
  }

  function DigitValue(c: char): nat
    requires IsDigit(c)
  {
    c as int - '0' as int
  }

  function DigitChar(d: nat): (c: char)
    requires d < 10
    ensures IsDigit(c) && DigitValue(c) == d
  {
    ('0' as int + d) as char
  }

  /** The decimal value of a digit string, leading zeros included (so "09" is 9). */
  function DigitsValue(s: string): nat
    requires forall i :: 0 <= i < |s| ==> IsDigit(s[i])
  {
    if s == [] then 0 else DigitsValue(s[..|s| - 1]) * 10 + DigitValue(s[|s| - 1])
  }

  /** Index of the first colon of `s`, or |s| when there is none. */
  function ColonIndex(s: string): (i: nat)
    ensures i <= |s|
    ensures i < |s| ==> s[i] == ':'
    ensures forall j :: 0 <= j < i ==> s[j] != ':'
  {
    if s == [] then 0
    else if s[0] == ':' then 0
    else 1 + ColonIndex(s[1..])
  }

  /** "H:MM", "HH:MM", "123:4", ...: digits, one colon, digits. */
  predicate IsTimeString(s: string) {
    var i := ColonIndex(s);
    i < |s| && IsDigits(s[..i]) && IsDigits(s[i + 1..])
  }

  function HoursPart(s: string): string
    requires IsTimeString(s)
  {
    s[..ColonIndex(s)]
  }

  function MinutesPart(s: string): string
    requires IsTimeString(s)
  {
    s[ColonIndex(s) + 1..]
  }

  /** Minutes since midnight denoted by a time string: hours * 60 + minutes. */
  function TimeToMinutes(s: string): nat
    requires IsTimeString(s)
  {
    DigitsValue(HoursPart(s)) * 60 + DigitsValue(MinutesPart(s))
  }

  /** Decimal rendering of a natural number without leading zeros ("0" for zero). */
  function NatToString(n: nat): (s: string)
    ensures IsDigits(s)
  {
    if n < 10 then [DigitChar(n)] else NatToString(n / 10) + [DigitChar(n % 10)]
  }

  /** Left-pads `s` with '0' up to length 2; longer strings are unchanged. */
  function PadStart2(s: string): (p: string)
    ensures |p| == if |s| < 2 then 2 else |s|
  {
    if |s| == 0 then "00"
    else if |s| == 1 then "0" + s
    else s
  }

  /** Renders minutes since midnight as zero-padded hours, a colon, zero-padded minutes. */
  function MinutesToTime(m: nat): (s: string)
    ensures IsTimeString(s)
    ensures |s| >= 5
  {
    var h := PadStart2(NatToString(m / 60));
    var mm := PadStart2(NatToString(m % 60));
    PadDigits(NatToString(m / 60));
    PadDigits(NatToString(m % 60));
    ColonSplit(h, mm);
    h + ":" + mm
  }

  // ---------------------------------------------------------------------------
  // Helper lemmas about digit strings

  lemma PadDigits(s: string)
    requires IsDigits(s)
    ensures IsDigits(PadStart2(s))
  {
  }

  /** A colon placed between two digit runs is found where it was put. */
  lemma {:induction false} ColonSplit(h: string, mm: string)
    requires IsDigits(h) && IsDigits(mm)
    ensures ColonIndex(h + ":" + mm) == |h|
    ensures (h + ":" + mm)[..|h|] == h
    ensures (h + ":" + mm)[|h| + 1..] == mm
  {
    if |h| == 1 {
      assert (h + ":" + mm)[0] == h[0];
      assert (h + ":" + mm)[1..] == ":" + mm;
    } else {
      var t := h[1..];
      assert IsDigits(t) by {
        forall i | 0 <= i < |t| ensures IsDigit(t[i]) {
          assert t[i] == h[i + 1];
        }
      }
      ColonSplit(t, mm);
      assert (h + ":" + mm)[0] == h[0];
      assert (h + ":" + mm)[1..] == t + ":" + mm;
    }
  }

  lemma {:induction false} DigitsValueSnoc(s: string, c: char)
    requires forall i :: 0 <= i < |s| ==> IsDigit(s[i])
    requires IsDigit(c)
    ensures DigitsValue(s + [c]) == DigitsValue(s) * 10 + DigitValue(c)
  {
    assert (s + [c])[..|s|] == s;
  }

  /** A leading zero does not change the value of a digit string. */
  lemma {:induction false} LeadingZero(s: string)
    requires forall i :: 0 <= i < |s| ==> IsDigit(s[i])
    ensures DigitsValue("0" + s) == DigitsValue(s)
  {
    if s == [] {
      assert ("0" + s)[..0] == [];
    } else {
      var init := s[..|s| - 1];
      LeadingZero(init);
      assert ("0" + s)[..|s|] == "0" + init;
    }
  }

  lemma {:induction false} NatToStringValue(n: nat)
    ensures DigitsValue(NatToString(n)) == n
  {
    if n < 10 {
      assert NatToString(n)[..0] == [];
    } else {
      NatToStringValue(n / 10);
      DigitsValueSnoc(NatToString(n / 10), DigitChar(n % 10));
    }
  }

  lemma PaddedValue(n: nat)
    ensures forall i :: 0 <= i < |PadStart2(NatToString(n))| ==> IsDigit(PadStart2(NatToString(n))[i])
    ensures DigitsValue(PadStart2(NatToString(n))) == n
  {
    var s := NatToString(n);
    NatToStringValue(n);
    if |s| == 1 {
      LeadingZero(s);
    }
  }

  // ---------------------------------------------------------------------------
  // Properties

  /** Rendering minutes as a time string and parsing it back gives the same minutes. */
  lemma {:induction false} RoundTrip(m: nat)
    ensures TimeToMinutes(MinutesToTime(m)) == m
  {
    var h := PadStart2(NatToString(m / 60));
    var mm := PadStart2(NatToString(m % 60));
    PadDigits(NatToString(m / 60));
    PadDigits(NatToString(m % 60));
    ColonSplit(h, mm);
    PaddedValue(m / 60);
    PaddedValue(m % 60);
    assert HoursPart(MinutesToTime(m)) == h;
    assert MinutesPart(MinutesToTime(m)) == mm;
  }

  /** The rendered hour field is the hour count, the minute field is below 60 and two digits. */
  lemma {:induction false} MinutesToTimeFields(m: nat)
    ensures DigitsValue(HoursPart(MinutesToTime(m))) == m / 60
    ensures DigitsValue(MinutesPart(MinutesToTime(m))) == m % 60 < 60
    ensures |MinutesPart(MinutesToTime(m))| == 2
    ensures |HoursPart(MinutesToTime(m))| >= 2
  {
    var h := PadStart2(NatToString(m / 60));
    var mm := PadStart2(NatToString(m % 60));
    PadDigits(NatToString(m / 60));
    PadDigits(NatToString(m % 60));
    ColonSplit(h, mm);
    PaddedValue(m / 60);
    PaddedValue(m % 60);
    if m % 60 >= 10 {
      assert NatToString(m % 60) == NatToString(m % 60 / 10) + [DigitChar(m % 60 % 10)];
    }
  }

  /**
    A canonical "HH:MM" string (two hour digits, two minute digits, minutes
    below 60) survives parsing and re-rendering unchanged.
   */
  lemma CanonicalRoundTrip(s: string)
    requires |s| == 5 && s[2] == ':'
    requires IsDigit(s[0]) && IsDigit(s[1]) && IsDigit(s[3]) && IsDigit(s[4])
    requires s[3] <= '5'
    ensures IsTimeString(s)
    ensures TimeToMinutes(s) == (DigitValue(s[0]) * 10 + DigitValue(s[1])) * 60 + DigitValue(s[3]) * 10 + DigitValue(s[4])
    ensures MinutesToTime(TimeToMinutes(s)) == s
  {
    CanonicalValue(s);
    RenderDigits(s);
  }

  /** Hours and minutes written with two digits each render back to those digits. */
  lemma RenderDigits(s: string)
    requires |s| == 5 && s[2] == ':'
    requires IsDigit(s[0]) && IsDigit(s[1]) && IsDigit(s[3]) && IsDigit(s[4]) && s[3] <= '5'
    ensures MinutesToTime((DigitValue(s[0]) * 10 + DigitValue(s[1])) * 60 + DigitValue(s[3]) * 10 + DigitValue(s[4])) == s
  {
    var hv := DigitValue(s[0]) * 10 + DigitValue(s[1]);
    var mv := DigitValue(s[3]) * 10 + DigitValue(s[4]);
    DivMod60(hv, mv);
    TwoDigits(s[0], s[1]);
    TwoDigits(s[3], s[4]);
    assert [s[0], s[1]] + ":" + [s[3], s[4]] == s;
  }

  lemma DivMod60(h: nat, m: nat)
    requires m < 60
    ensures (h * 60 + m) / 60 == h && (h * 60 + m) % 60 == m
  {
  }

  /**
    A five-character "HH:MM" parses to its digits' value. Neither field is
    range-checked: "08:75" denotes 8*60 + 75.
   */
  lemma CanonicalValue(s: string)
    requires |s| == 5 && s[2] == ':'
    requires IsDigit(s[0]) && IsDigit(s[1]) && IsDigit(s[3]) && IsDigit(s[4])
    ensures IsTimeString(s)
    ensures TimeToMinutes(s) == (DigitValue(s[0]) * 10 + DigitValue(s[1])) * 60 + DigitValue(s[3]) * 10 + DigitValue(s[4])
  {
    var h := s[..2];
    var mm := s[3..];
    assert IsDigits(h) && IsDigits(mm);
    ColonSplit(h, mm);
    assert s == h + ":" + mm;
    assert h[..1] == [s[0]] && ([s[0]])[..0] == [];
    assert mm[..1] == [s[3]] && ([s[3]])[..0] == [];
    assert DigitsValue(h[..1]) == DigitValue(s[0]);
    assert DigitsValue(mm[..1]) == DigitValue(s[3]);
  }

  /** Two digits rendered and padded give back the same two characters. */
  lemma TwoDigits(a: char, b: char)
    requires IsDigit(a) && IsDigit(b)
    ensures PadStart2(NatToString(DigitValue(a) * 10 + DigitValue(b))) == [a, b]
  {
    var n := DigitValue(a) * 10 + DigitValue(b);
    assert DigitChar(DigitValue(a)) == a && DigitChar(DigitValue(b)) == b;
    if DigitValue(a) == 0 {
      assert n == DigitValue(b) < 10;
      assert a == '0';
    } else {
      assert n / 10 == DigitValue(a) && n % 10 == DigitValue(b);
    }
  }
}
